=== FILE: README.md ===
# VideoLingo: the LLM broker and the CapCut client, in Dafny

This project models two pieces of VideoLingo's core and proves properties
of them.

**`ask_gpt`** (`core/ask_gpt.py`) answers a prompt from a call log when it
can. Otherwise it calls a chat-completion endpoint up to five times. It
decodes and validates each reply, logs the rejected replies to the `error`
partition, and logs the accepted one to the caller's partition.

- **The call log.** The log folder is an immutable map from file name to
  the records that file holds (`GptLog`). `save_log` becomes `SaveLog` and
  `check_ask_gpt_history` becomes `Lookup`.
- **The endpoint.** Its behaviour is a scripted function from attempt
  number to reply: a transport error or a text (`Backend.transport`).
- **The JSON decoder.** `json_repair.loads` is an abstract partial function
  (`Backend.decode`).
- **The validator.** It is an optional abstract function returning a
  status and a message, or raising.
- **The retry loop.** It is a recursive function over the attempt index
  (`AskGpt.Loop`). It is driven by the verdict of each attempt
  (`AskGpt.Attempt`).

**The CapCut client** (`core/capcut_process/request_capcut_api.py`) builds
one JSON object per editing call and posts it to the CapCut draft service.

- **The builders.** Each one is a pure function from its arguments to the
  object it sends (`CapcutPayloads`).
- **The arguments.** Each builder's arguments are a record whose
  constructor carries the Python keyword defaults.
- **The objects.** Each object is a record with one field per JSON key. A
  key that may be left out is an `Option` field. Keys the client only ever
  sends together share one optional sub-record, so "sent together" holds by
  construction.
- **Python values.** They are the `Values.Value` datatype, with Python's
  truthiness (`Truthy`) and `or` (`Or`).
- **The guard.** `require_capcut_api` reads `capcut.installed` and
  `BASE_URL`, which form the `Env` parameter.
- **The HTTP exchange.** It is the `Http` parameter, a function from the
  request sent to the reply received.
- **One call.** `CapcutApi.Invoke` is one guarded builder call.

Modules:

| module | file | models |
|---|---|---|
| `Values` | values.dfy | Python values, truthiness, `or` |
| `Text` | text.dfy | `in`, `endswith` and `strip` on strings |
| `GptLog` | gpt_log.dfy | `save_log`, `check_ask_gpt_history` |
| `AskGpt` | ask_gpt.dfy | `ask_gpt`: cache, key check, request setup, retry loop, logging |
| `AskGptProps` | ask_gpt_props.dfy | what whole calls of `ask_gpt` do |
| `CapcutPayloads` | capcut_payloads.dfy | the objects the eleven builders send |
| `CapcutCalls` | capcut_calls.dfy | the builders side by side: endpoints, `draft_id` |
| `CapcutApi` | capcut_api.dfy | the guard, `make_request`, `get_font_types`, guarded calls |
| `CapcutProps` | capcut_props.dfy | what guarded calls and defaulted arguments do |

Behaviours of the code worth knowing:

- **Transport errors.** A failed endpoint call writes no error record. Only
  decode failures, validator failures and rejections write records.
- **Rejections.** A rejected reply writes two records to the `error`
  partition: the decoded data with the validator's message, then the raw
  text with the parse-failure note. This is because the `ValueError` raised
  after the first save is caught by the handler that writes the second.
- **A verdict without a message.** A rejection whose verdict has no
  `message` key writes only the parse-failure note. Reading the message
  raises before the first save. A `message` that is present, even as
  `None`, is written with the data as the first of the two records.
- **A falsy stored answer shadows later ones.** The lookup returns the
  first record found for the prompt and model. When that record's response
  is falsy (an empty string, say), it is not a hit, and the endpoint is
  called. Saving appends at the end of a file, so within its file that
  record stays first, and a record saved behind it does not help: the key
  can be asked and logged again on every call.

## Model

| member | source | states |
|---|---|---|
| Values.FalsyValues | core/capcut_process/request_capcut_api.py:83 | the values an `if x:` test rejects are exactly `None`, `False`, `0`, `0.0`, the empty string, list and dict |
| Values.Or | core/capcut_process/request_capcut_api.py:162 | Python's `x or y`: `x` when truthy, else `y`; truthy whenever `y` is |
| GptLog.SaveLogAppends | core/ask_gpt.py:14-31 | saving appends exactly one record `{model, prompt, response, message}` to the end of the title's file, creates the folder and file when missing, and leaves every other file as it was |
| GptLog.FirstMatch | core/ask_gpt.py:43-45 | the response of the FIRST record in the file whose prompt and model both match (no earlier record matches), and a miss exactly when no record matches |
| GptLog.Scan | core/ask_gpt.py:37-46 | over the listed files, a hit is the first match of some listed `.json` file whose name lacks "error"; a miss exactly when no such file holds a match |
| GptLog.Lookup | core/ask_gpt.py:33-46 | a missing folder is a miss; otherwise a hit is the first match of some listed consulted file, and a miss exactly when no consulted listed file holds a match |
| GptLog.TitleConsulted | core/ask_gpt.py:22 | a title's file is consulted exactly when the title does not contain "error" |
| GptLog.LookupIgnoresIneligible | core/ask_gpt.py:39 | changing a non-`.json` file or one whose name contains "error" never changes the lookup's answer |
| GptLog.MissMeansNoRecord | core/ask_gpt.py:33-46 | over a complete listing, in any order, a miss means no consulted file holds a record for the prompt and model |
| GptLog.LookupUnique | core/ask_gpt.py:37-45 | when all consulted records for the key agree on a response, the lookup returns it whatever the listing order |
| GptLog.SaveThenLookup | core/ask_gpt.py:14-46 | saving a record for an unanswered key into a consulted partition makes the lookup return exactly that response |
| Text.ContainsAt | core/ask_gpt.py:61 | an occurrence at any offset makes `t in s` true |
| Text.ContainsOffset | core/ask_gpt.py:39-61 | conversely, `t in s` holds only when `t` occurs at some offset, so `Contains` is exactly Python's `in` |
| Text.ContainsSuffix | core/ask_gpt.py:61 | a string contains each of its suffixes |
| Text.JsonSuffixKeepsError | core/ask_gpt.py:22-39 | appending ".json" to a name neither creates nor destroys an occurrence of "error" |
| Text.StripLeading | core/ask_gpt.py:61 | `lstrip`: the longest suffix not starting with the character, everything dropped being that character |
| Text.StripTrailing | core/ask_gpt.py:61 | `rstrip`: the longest prefix not ending with the character, everything dropped being that character |
| Text.Strip | core/ask_gpt.py:61 | `strip`: the middle of the string after dropping the runs of the character at both ends; it neither starts nor ends with it |
| AskGpt.NormalizeBaseUrl | core/ask_gpt.py:61 | a base URL containing "v1" is kept; any other is stripped of '/' at both ends and gets "/v1"; the result always contains "v1" |
| AskGpt.ResponseFormat | core/ask_gpt.py:63 | JSON mode `{"type": "json_object"}` is requested iff JSON is wanted and the model is on the allow-list, otherwise `None` |
| AskGpt.Setup | core/ask_gpt.py:57-63 | the arguments of every `chat.completions.create` call are the single user message holding the prompt, the configured model and key; its base URL is the configured one when that contains "v1", else the configured one stripped of '/' plus "/v1"; its format is `{"type": "json_object"}` when JSON is wanted and the model is allow-listed, else `None` |
| AskGpt.Attempt | core/ask_gpt.py:66-104 | a transport error fails without a record; a plain-text reply is accepted as text; a JSON reply is accepted iff it decodes and the validator approves; a decode failure, a raising validator, a verdict without `status` and a refusal without `message` each write exactly the raw text with the parse note; a refusal with a `message`, `None` included, writes the data with that message, then the raw text with the note |
| AskGpt.SaveAllAppends | core/ask_gpt.py:82-89 | saving records one by one appends them, in order, to the partition and leaves every other file as it was |
| AskGpt.SaveAllAppend | core/ask_gpt.py:82-89 | saving two batches in turn is saving their concatenation |
| AskGpt.Loop | core/ask_gpt.py:65-104 | at most five calls; every attempt before the last made failed; an accepted end returns the last attempt's data; an exhausted end made exactly five calls and reports the fifth failure |
| AskGpt.LoopErrorLog | core/ask_gpt.py:65-104 | the loop leaves the log as if the error records of the attempts it made were saved to `error` one by one, in order |
| AskGpt.LoopErrorLogOn | core/ask_gpt.py:65-104 | after a failed attempt that is not the last, its error records come first, then those of the later attempts |
| AskGpt.SaveErrorsInTurn | core/ask_gpt.py:82-89 | saving one attempt's records, then the later attempts' records, is saving the records of all of them |
| AskGpt.LoopStep | core/ask_gpt.py:66-104 | a failed attempt that is not the last continues with the next one, after its records are saved; otherwise the loop ends after this attempt |
| AskGpt.Exchange | core/ask_gpt.py:57-109 | between one and five calls of `chat.completions.create`, all with the same arguments; every attempt but the last failed; a return is the last attempt's accepted data; a raise comes after five calls with the fifth failure |
| AskGpt.Ask | core/ask_gpt.py:48-109 | a truthy cache hit returns the stored response with no call and no write, before the key check; a missing key raises with no call and no write; otherwise the endpoint is called; a raise with no call is the missing key |
| AskGptProps.ErrorTitleNotConsulted | core/ask_gpt.py:39 | the `error` partition is never consulted by the lookup |
| AskGptProps.ErrorSavesKeepUnanswered | core/ask_gpt.py:39-89 | saving error records never makes an unanswered key answered |
| AskGptProps.ExchangeFolder | core/ask_gpt.py:65-107 | after one call, the log is the error records of its attempts saved in order, then the success record under the title if any |
| AskGptProps.ErrorFileDistinct | core/ask_gpt.py:22 | the `error` partition and any other title name different files |
| AskGptProps.ErrorsThenSuccess | core/ask_gpt.py:82-107 | the error saves and the success save append to exactly their two partitions and touch no other file |
| AskGptProps.ExchangeLogEffect | core/ask_gpt.py:65-107 | one call appends its attempts' error records, in order, to `error`, and the single success record, unless the title is "None", to the caller's partition; every other file is untouched |
| AskGptProps.TransportAlwaysFails | core/ask_gpt.py:96-104 | when every endpoint call fails, a call that reaches the endpoint raises after exactly five calls of `chat.completions.create`, all with the same arguments, and the log is unchanged |
| AskGptProps.NoErrorsBetween | core/ask_gpt.py:96-102 | attempts that write no record add nothing to the error log |
| AskGptProps.PlainReplyEndsLoop | core/ask_gpt.py:92-94 | without JSON mode the first reply that arrives is returned as text after one call per earlier failure, and only the success record is written |
| AskGptProps.NoAttemptAccepted | core/ask_gpt.py:90-104 | when no attempt is accepted, a call that reaches the endpoint raises after five calls with the fifth failure, and the only writes are all five attempts' error records, appended to `error`, whatever the log title |
| AskGptProps.RejectedVerdict | core/ask_gpt.py:79-89 | a decoded reply with a non-success status and a message fails as a rejection carrying that message and writes its two records |
| AskGptProps.RejectionsLogged | core/ask_gpt.py:79-89 | rejected attempts write exactly their rejection records, in attempt order |
| AskGptProps.RejectionLogInPairs | core/ask_gpt.py:82-89 | the rejection log holds two records per attempt, in attempt order |
| AskGptProps.ValidatorAlwaysRejects | core/ask_gpt.py:79-104 | when the validator rejects all five replies, a call that reaches the endpoint raises after five calls with the last rejection, and `error` gains ten records, two per attempt, whatever the log title |
| AskGptProps.DecodeFailuresLogged | core/ask_gpt.py:76-89 | each reply that cannot be decoded fails with a decode failure and writes its raw text with the parse note |
| AskGptProps.ParseFailureLogInOrder | core/ask_gpt.py:87-89 | the parse-failure log holds one record per attempt, in attempt order |
| AskGptProps.DecoderAlwaysFails | core/ask_gpt.py:76-104 | when no reply decodes, a call that reaches the endpoint raises after five calls and `error` gains five parse-failure records, in order, whatever the log title |
| AskGptProps.RepeatedAskIsCached | core/ask_gpt.py:48-109 | when nothing was stored for the prompt and model before, and a call returns a truthy value logged under a consulted title, a repeated call with that prompt and model returns it with no endpoint call and no write |
| AskGptProps.FalsyAnswerShadows | core/ask_gpt.py:43-55 | when the first stored response for the prompt and model is falsy, the call goes on to the endpoint, with a key, exactly as if nothing were stored |
| AskGptProps.DefaultQueryIsLoggedAndConsulted | core/ask_gpt.py:48 | the default arguments ask for JSON with no validator and log to `default.json`, which the lookup consults |
| CapcutApi.Url | core/capcut_process/request_capcut_api.py:40 | the address is the base URL, a '/', then the endpoint |
| CapcutApi.UrlNamesEndpoint | core/capcut_process/request_capcut_api.py:40 | two endpoints of one service have the same address exactly when they are equal |
| CapcutApi.Complete | core/capcut_process/request_capcut_api.py:50-56 | a sent request returns the decoded body, or `None` when the request failed or the body is not JSON; neither handler raises |
| CapcutApi.Dispatch | core/capcut_process/request_capcut_api.py:43-49 | a request is sent exactly for "POST" and "GET", with the verb named, to the endpoint's address, carrying the object |
| CapcutApi.MakeRequest | core/capcut_process/request_capcut_api.py:28-56 | unready, the "not installed" reply; a `ValueError` with message "Unsupported HTTP method: " plus the method exactly when ready and the method is neither "POST" nor "GET"; otherwise the outcome of the one request sent |
| CapcutApi.GetFontTypes | core/capcut_process/request_capcut_api.py:58-65 | never raises; unready, the "not installed" reply; otherwise the outcome of a GET of `get_font_types` with an empty object |
| CapcutPayloads.AudioTrackPayload | core/capcut_process/request_capcut_api.py:67-86 | every argument sent under its own key, `None`s included; `draft_id` iff truthy |
| CapcutPayloads.TextPayload | core/capcut_process/request_capcut_api.py:88-140 | the fixed keys, with the font colour, size and alpha as `color`, `size`, `alpha`; the three border keys together iff `border_color` is truthy; background colour and alpha iff `background_color` is truthy, with `background_style` only then and only when truthy; `bubble_resource_id` only with a truthy `bubble_effect_id`; the effect, `draft_id` and outro keys iff truthy |
| CapcutPayloads.ImagePayload | core/capcut_process/request_capcut_api.py:142-178 | the fixed keys as given; `transition_duration` the argument when truthy, else 0.5, so always truthy; all nine mask keys as given; `draft_id` iff truthy |
| CapcutPayloads.GenerateImagePayload | core/capcut_process/request_capcut_api.py:180-202 | the fixed keys as given; `transition_duration` the argument when truthy, else 0.5; `draft_id` iff truthy |
| CapcutPayloads.StickerPayload | core/capcut_process/request_capcut_api.py:204-231 | the resource id sent as `sticker_id`; every other argument under its key; `draft_id` iff truthy |
| CapcutPayloads.KeyframePayload | core/capcut_process/request_capcut_api.py:233-263 | `draft_id` and `track_name` always; each single or batch keyframe key iff its argument is not `None`, so a falsy value is still sent |
| CapcutPayloads.VideoPayload | core/capcut_process/request_capcut_api.py:265-308 | `height` always, as given, `None` included; `start`, `end`, `width` and `draft_id` iff truthy; `transition_duration` the argument when truthy, else 0.5; all nine mask keys as given |
| CapcutPayloads.EffectPayload | core/capcut_process/request_capcut_api.py:310-327 | `params` the argument when truthy, else `[]`; the other keys as given; `draft_id` iff truthy |
| CapcutPayloads.CreateDraftPayload | core/capcut_process/request_capcut_api.py:329-340 | width and height as given; `draft_id` iff truthy |
| CapcutPayloads.SubtitlePayload | core/capcut_process/request_capcut_api.py:342-365 | `srt`, `track_name`, `font_size`, `font_color`, `transform_y` always; `font` iff truthy; `border_color` and `border_width` together iff `border_color` is truthy; `draft_id` iff truthy |
| CapcutPayloads.SaveDraftPayload | core/capcut_process/request_capcut_api.py:367-375 | both arguments, always |
| CapcutCalls.DraftIdAcrossCalls | core/capcut_process/request_capcut_api.py:67-375 | across all eleven builders: the keyframe and save calls always send `draft_id` as given; every other call sends it exactly when truthy |
| CapcutCalls.EndpointNamesBuilder | core/capcut_process/request_capcut_api.py:67-375 | two calls post to the same endpoint exactly when they call the same builder |
| CapcutProps.InvokePostsOnce | core/capcut_process/request_capcut_api.py:28-56 | a guarded builder call never raises: unready it returns the "not installed" reply, ready it posts its own object to its own endpoint and returns that exchange's outcome |
| CapcutProps.GuardSendsNothing | core/capcut_process/request_capcut_api.py:28-35 | when unready, the transport makes no difference to any guarded function: nothing is sent |
| CapcutProps.OnlyTheCallsRequestMatters | core/capcut_process/request_capcut_api.py:38-56 | when ready, a call's result depends only on the reply to its one request |
| CapcutProps.UrlNamesBuilder | core/capcut_process/request_capcut_api.py:38-375 | calls go to the same address exactly when they call the same builder |
| CapcutProps.FalsyKeptByKeyframeDroppedByVideo | core/capcut_process/request_capcut_api.py:250-301 | a falsy value that is not `None`, such as 0, is sent by the keyframe call and dropped by the video call |
| CapcutProps.AudioTrackDefaults | core/capcut_process/request_capcut_api.py:68-69 | an audio track given only its source and timing has volume 1.0, speed 1.0, track "main_audio", no effect and no draft id |
| CapcutProps.VideoDefaults | core/capcut_process/request_capcut_api.py:266-271 | a video given only its address sends no start, end or width, a `None` height, track "main", a 0.5 transition duration and the centred full-frame mask |
| CapcutProps.ImageMaskDefaults | core/capcut_process/request_capcut_api.py:143-147 | the default image mask is half-size at the origin, unlike the default video mask |
| CapcutProps.SubtitleDefaults | core/capcut_process/request_capcut_api.py:343-345 | a subtitle given only its SRT has track "subtitle_main", size 8, colour "#FFFFFF", no font, no border and no draft id |
| CapcutProps.EffectParamsDefault | core/capcut_process/request_capcut_api.py:311-319 | an effect with no parameters, or an empty list, sends `[]` |

## Left out

- The lock around the history check and the success save. `ask_gpt` is modelled as a sequential call; nothing is claimed about concurrent calls.
- File input and output. The log folder is an in-memory map, and JSON (de)serialisation of log files is not modelled. A log file that does not parse, or a record without `prompt` or `model`, would raise in the source and is not represented.
- The order of `os.listdir`. It is a parameter; the properties that depend on it require the listing to name exactly the folder's files.
- `time.sleep(2)`, which the outer handler runs after a transport error or another exception that escapes the inner handler, on every attempt but the last; decode failures and rejections go to the next attempt without it. It, and every `print`, affect no result.
- The OpenAI client and the HTTP transport of the CapCut client. Both are parameters: `Backend.transport` and `Http`. One `Backend.transport` outcome stands for one call of `chat.completions.create`. The client is built without `max_retries` or a timeout, so its own retries and timeouts happen inside that one outcome, and `AskResult.sent` counts calls, not HTTP requests. A reply whose first choice has no text content is not represented.
- The internals of `json_repair.loads`. The decoder is an abstract partial function, so nothing is assumed about what it accepts.
- `log_title=None`, which only the module's self-test passes. Titles are strings.
- Titles as paths. The source joins the title onto the log folder with `os.path.join`. A title holding a path separator or an absolute path would make the write go to a subfolder or outside the folder, or fail when the subfolder does not exist, and the listing would show the subfolder instead of the file. The model treats every title as a plain file name directly in the folder. `GptLog.SaveThenLookup` and `AskGptProps.RepeatedAskIsCached` hold only under that reading.
- The import-time computation of `BASE_URL` from `PORT`. Its outcome is the `Env.baseUrl` parameter, and `capcut.installed` is read as one value for both guards of a call.
- The JSON key names and key order. Each object is a record with one field per key, named after the key in camel case (`trackName` for `track_name`), instead of a map from key strings to values. Where a key differs from its argument's name (`color`, `size` and `alpha` for the text font, `sticker_id`), the builder's doc comment says so.
- Numbers are Python `int` and `float` as unbounded integers and reals, so `float` rounding is not modelled.
- The rest of the repository: the Streamlit sidebar, `install.py`, the ffmpeg command builders, WhisperX and the CapCut server manager are not part of this model.

=== FILE: ask_gpt.dfy ===
/**
  `ask_gpt`: answer a prompt from the call log when it can, otherwise call
  the chat-completion endpoint up to five times, decode and validate each
  reply, log every rejected reply to the `error` partition and the accepted
  one to the caller's partition.

  Everything outside the function is a parameter: the configuration
  (`MODEL`, `API_KEY`, `BASE_URL`, `llm_support_json`), the outcome of the
  k-th endpoint call (`Backend.transport`), the tolerant JSON decoder
  (`Backend.decode`, standing for `json_repair.loads`) and the caller's
  validator. The run is sequential; the lock is not modelled.
 */
module AskGpt {
  import opened Values
  import opened Text
  import opened GptLog

  /** `max_retries`: the endpoint is called at most this many times. */
  const MaxRetries: nat := 5
  /** The log title that receives rejected replies. */
  const ErrorTitle := "error"
  /** The log title that switches off logging of the accepted reply. */
  const NoLogTitle := "None"
  /** The note stored with every raw reply that was not accepted after decoding. */
  const ParseFailureNote := "json_repair parsing failed."

  /** The configuration values `ask_gpt` reads. */
  datatype Config = Config(model: string, apiKey: string, baseUrl: string, jsonModels: seq<string>)

  datatype Message = Message(role: string, content: string)

  /** What one call of the endpoint is given: the client's key and base URL
      and the arguments of `chat.completions.create`. */
  datatype ChatRequest = ChatRequest(baseUrl: string, apiKey: string, model: string,
                                     messages: seq<Message>, responseFormat: Value)

  /** The outcome of one endpoint call: it raised (a `RequestException` or
      any other exception), or it returned a first choice with this text. */
  datatype Reply = TransportError | Content(text: string)

  /** What calling the validator yields: it raised, or returned a dict
      whose `status` and `message` entries are given, `None` standing for a
      missing key (a present `None` is `Some(Null)`). A missing `status`
      raises when the status is read; a missing `message` raises only when
      the message is read, that is, on rejection. */
  datatype Check = Raises | Verdict(status: Option<Value>, message: Option<Value>)

  /** The scripted environment of one `ask_gpt` call. */
  datatype Backend = Backend(transport: nat -> Reply, decode: string -> Option<Value>)

  /** The arguments of `ask_gpt`. */
  datatype Query = Query(prompt: string, responseJson: bool, validator: Option<Value -> Check>, logTitle: string)

  /** Why an attempt did not end the loop. */
  datatype Failure = TransportFailed | DecodeFailed | ValidatorRaised | Rejected(message: Option<Value>)

  /** One attempt's verdict and the records it writes to the `error` partition. */
  datatype Step = Accept(data: Value) | Retry(failure: Failure, errors: seq<Record>)

  datatype LoopEnd = Accepted(data: Value) | Exhausted(last: Failure)

  /** The loop's end, the log folder after it, and how many endpoint calls it made. */
  datatype LoopResult = LoopResult(end: LoopEnd, folder: LogFolder, calls: nat)

  datatype AskError = MissingApiKey | RetriesExhausted(last: Failure)

  datatype Outcome = Returned(value: Value) | Raised(error: AskError)

  /** What `ask_gpt` returns or raises, the log folder afterwards, and the
      arguments of each call of `chat.completions.create`, in order. The
      client's own retries of one call are not counted separately. */
  datatype AskResult = AskResult(outcome: Outcome, folder: LogFolder, sent: seq<ChatRequest>)

  /** The arguments' defaults: `response_json=True, valid_def=None, log_title='default'`. */
  function DefaultQuery(prompt: string): Query {
    Query(prompt, true, None, "default")
  }

  /** The client's base URL: kept when it mentions "v1", otherwise stripped
      of slashes at both ends and given a "/v1" suffix. */
  function NormalizeBaseUrl(baseUrl: string): (r: string)
    ensures Contains(r, "v1")
    ensures Contains(baseUrl, "v1") ==> r == baseUrl
    ensures !Contains(baseUrl, "v1") ==> EndsWith(r, "/v1") && r[..|r| - 3] == Strip(baseUrl, '/')
  {
    if Contains(baseUrl, "v1") then baseUrl
    else
      var r := Strip(baseUrl, '/') + "/v1";
      ContainsSuffix(Strip(baseUrl, '/') + "/", "v1");
      assert Strip(baseUrl, '/') + "/" + "v1" == r;
      r
  }

  /** JSON mode (`{"type": "json_object"}`) is requested exactly when the
      caller wants JSON and the model is on the JSON allow-list. */
  function ResponseFormat(cfg: Config, responseJson: bool): (r: Value)
    ensures r != Null <==> responseJson && cfg.model in cfg.jsonModels
    ensures r == Null || r == Obj(map["type" := Str("json_object")])
  {
    if responseJson && cfg.model in cfg.jsonModels then Obj(map["type" := Str("json_object")]) else Null
  }

  /** What every attempt's call of `chat.completions.create` is given: one
      user message holding the prompt. */
  function Setup(cfg: Config, prompt: string, responseJson: bool): (req: ChatRequest)
    ensures req.messages == [Message("user", prompt)]
    ensures req.model == cfg.model && req.apiKey == cfg.apiKey
    ensures Contains(req.baseUrl, "v1")
    ensures Contains(cfg.baseUrl, "v1") ==> req.baseUrl == cfg.baseUrl
    ensures !Contains(cfg.baseUrl, "v1") ==> req.baseUrl == Strip(cfg.baseUrl, '/') + "/v1"
    ensures responseJson && cfg.model in cfg.jsonModels ==> req.responseFormat == Obj(map["type" := Str("json_object")])
    ensures !(responseJson && cfg.model in cfg.jsonModels) ==> req.responseFormat == Null
  {
    ChatRequest(NormalizeBaseUrl(cfg.baseUrl), cfg.apiKey, cfg.model, [Message("user", prompt)],
                ResponseFormat(cfg, responseJson))
  }

  /** The error record of a raw reply that failed decoding or validation. */
  function ParseFailureRecord(model: string, prompt: string, raw: string): Record {
    Record(model, prompt, Str(raw), Str(ParseFailureNote))
  }

  /** The validator lets `data` through: there is none, or it reports success. */
  predicate Approves(validator: Option<Value -> Check>, data: Value) {
    validator.None? || (validator.value(data).Verdict? && validator.value(data).status == Some(Str("success")))
  }

  /** One attempt of the loop, given the endpoint's reply. A transport error
      writes nothing. A reply that cannot be decoded, whose validator raises
      or returns no `status`, or that is refused without a `message`, writes
      the raw text with the parse-failure note. A reply refused with a
      `message`, `None` included, writes the decoded data with that message,
      then the raw text with the parse-failure note. */
  function Attempt(reply: Reply, responseJson: bool, decode: string -> Option<Value>,
                   validator: Option<Value -> Check>, model: string, prompt: string): (s: Step)
    ensures reply.TransportError? <==> s == Retry(TransportFailed, [])
    ensures reply.Content? && !responseJson ==> s == Accept(Str(reply.text))
    ensures reply.Content? && responseJson ==>
              (s.Accept? <==> decode(reply.text).Some? && Approves(validator, decode(reply.text).value))
    ensures s.Accept? && responseJson ==> decode(reply.text) == Some(s.data)
    ensures reply.Content? && responseJson && decode(reply.text).None? ==>
              s == Retry(DecodeFailed, [ParseFailureRecord(model, prompt, reply.text)])
    ensures s.Retry? && reply.Content? ==>
              s.errors != [] && s.errors[|s.errors| - 1] == ParseFailureRecord(model, prompt, reply.text)
    ensures reply.Content? && responseJson && decode(reply.text).Some? && validator.Some? ==>
              var data := decode(reply.text).value;
              var check := validator.value(data);
              var note := ParseFailureRecord(model, prompt, reply.text);
              var refused := check.Verdict? && check.status.Some? && check.status != Some(Str("success"));
              && (check.Raises? ==> s == Retry(ValidatorRaised, [note]))
              && (check.Verdict? && check.status.None? ==> s == Retry(ValidatorRaised, [note]))
              && (refused && check.message.None? ==> s == Retry(Rejected(None), [note]))
              && (refused && check.message.Some? ==>
                    s == Retry(Rejected(check.message), [Record(model, prompt, data, check.message.value), note]))
  {
    match reply
    case TransportError => Retry(TransportFailed, [])
    case Content(raw) =>
      if !responseJson then Accept(Str(raw))
      else
        var note := ParseFailureRecord(model, prompt, raw);
        match decode(raw)
        case None => Retry(DecodeFailed, [note])
        case Some(data) =>
          if validator.None? then Accept(data)
          else
            match validator.value(data)
            case Raises => Retry(ValidatorRaised, [note])
            case Verdict(status, message) =>
              if status == Some(Str("success")) then Accept(data)
              else if status.None? then Retry(ValidatorRaised, [note])
              else if message.None? then Retry(Rejected(None), [note])
              else Retry(Rejected(message), [Record(model, prompt, data, message.value), note])
  }

  /** The verdicts of this call's attempts, by attempt index. */
  function Verdicts(cfg: Config, q: Query, backend: Backend): nat -> Step {
    (k: nat) => Attempt(backend.transport(k), q.responseJson, backend.decode, q.validator, cfg.model, q.prompt)
  }

  function ErrorsOf(s: Step): seq<Record> {
    if s.Retry? then s.errors else []
  }

  /** The error records written by attempts `lo` up to (excluding) `hi`, in order. */
  function ErrorsBetween(verdicts: nat -> Step, lo: nat, hi: nat): seq<Record>
    decreases hi - lo
  {
    if lo >= hi then [] else ErrorsOf(verdicts(lo)) + ErrorsBetween(verdicts, lo + 1, hi)
  }

  /** Calls `save_log` once per record, in order, on partition `title`. */
  function SaveAll(folder: LogFolder, title: string, records: seq<Record>): LogFolder
    decreases |records|
  {
    if records == [] then folder
    else
      var r := records[0];
      SaveAll(SaveLog(folder, r.model, r.prompt, r.response, title, r.message), title, records[1..])
  }

  /** Saving records one by one appends them, in order, to the partition and
      leaves every other file as it was. */
  lemma {:induction false} SaveAllAppends(folder: LogFolder, title: string, records: seq<Record>)
    ensures Partition(SaveAll(folder, title, records), title) == Partition(folder, title) + records
    ensures forall n :: n != FileName(title) ==>
              (n in Files(SaveAll(folder, title, records)) <==> n in Files(folder))
    ensures forall n :: n in Files(folder) && n != FileName(title) ==>
              Files(SaveAll(folder, title, records))[n] == Files(folder)[n]
    decreases |records|
  {
    if records == [] {
      assert Partition(folder, title) + records == Partition(folder, title);
    } else {
      var r := records[0];
      var next := SaveLog(folder, r.model, r.prompt, r.response, title, r.message);
      SaveLogAppends(folder, r.model, r.prompt, r.response, title, r.message);
      SaveAllAppends(next, title, records[1..]);
      assert Partition(next, title) + records[1..] == Partition(folder, title) + records;
    }
  }

  lemma {:induction false} SaveAllAppend(folder: LogFolder, title: string, a: seq<Record>, b: seq<Record>)
    ensures SaveAll(SaveAll(folder, title, a), title, b) == SaveAll(folder, title, a + b)
    decreases |a|
  {
    if a == [] {
      assert a + b == b;
    } else {
      var r := a[0];
      assert (a + b)[0] == r && (a + b)[1..] == a[1..] + b;
      var next := SaveLog(folder, r.model, r.prompt, r.response, title, r.message);
      SaveAllAppend(next, title, a[1..], b);
      assert SaveAll(folder, title, a) == SaveAll(next, title, a[1..]);
      assert SaveAll(folder, title, a + b) == SaveAll(next, title, a[1..] + b);
    }
  }

  /** The retry loop from attempt `attempt` on, given each attempt's
      verdict: it ends at the first accepted reply, or raises once the last
      allowed attempt has failed. Each failed attempt's error records are
      written before the next attempt starts. */
  function Loop(verdicts: nat -> Step, attempt: nat, folder: LogFolder): (r: LoopResult)
    requires attempt < MaxRetries
    ensures attempt < r.calls <= MaxRetries
    ensures forall k :: attempt <= k < r.calls - 1 ==> verdicts(k).Retry?
    ensures r.end.Accepted? ==> verdicts(r.calls - 1) == Accept(r.end.data)
    ensures r.end.Exhausted? ==> r.calls == MaxRetries && verdicts(r.calls - 1).Retry?
                                 && verdicts(r.calls - 1).failure == r.end.last
    decreases MaxRetries - attempt
  {
    var step := verdicts(attempt);
    var next := SaveAll(folder, ErrorTitle, ErrorsOf(step));
    match step
    case Accept(data) => LoopResult(Accepted(data), next, attempt + 1)
    case Retry(failure, _) =>
      if attempt == MaxRetries - 1 then LoopResult(Exhausted(failure), next, MaxRetries)
      else Loop(verdicts, attempt + 1, next)
  }

  /** The loop leaves the log folder as if the error records of the attempts
      it made had been saved to the `error` partition one by one, in order. */
  lemma {:induction false} LoopErrorLog(verdicts: nat -> Step, attempt: nat, folder: LogFolder)
    requires attempt < MaxRetries
    ensures Loop(verdicts, attempt, folder).folder
            == SaveAll(folder, ErrorTitle, ErrorsBetween(verdicts, attempt, Loop(verdicts, attempt, folder).calls))
    decreases MaxRetries - attempt, 1
  {
    var step := verdicts(attempt);
    LoopStep(verdicts, attempt, folder);
    if step.Retry? && attempt < MaxRetries - 1 {
      LoopErrorLogOn(verdicts, attempt, folder);
    } else {
      assert ErrorsBetween(verdicts, attempt, attempt + 1) == ErrorsOf(step) + [];
      assert ErrorsOf(step) + [] == ErrorsOf(step);
    }
  }

  /** The inductive step of `LoopErrorLog`: a failed attempt's records come
      first, then those of the attempts after it. */
  lemma {:induction false} LoopErrorLogOn(verdicts: nat -> Step, attempt: nat, folder: LogFolder)
    requires attempt < MaxRetries - 1 && verdicts(attempt).Retry?
    ensures Loop(verdicts, attempt, folder).folder
            == SaveAll(folder, ErrorTitle, ErrorsBetween(verdicts, attempt, Loop(verdicts, attempt, folder).calls))
    decreases MaxRetries - attempt, 0
  {
    var next := SaveAll(folder, ErrorTitle, ErrorsOf(verdicts(attempt)));
    var r := Loop(verdicts, attempt + 1, next);
    LoopStep(verdicts, attempt, folder);
    LoopErrorLog(verdicts, attempt + 1, next);
    SaveErrorsInTurn(folder, verdicts, attempt, r.calls);
  }

  /** Saving the records of attempt `lo`, then those of the attempts after
      it, is saving the records of all of them. */
  lemma SaveErrorsInTurn(folder: LogFolder, verdicts: nat -> Step, lo: nat, hi: nat)
    requires lo < hi
    ensures SaveAll(SaveAll(folder, ErrorTitle, ErrorsOf(verdicts(lo))), ErrorTitle, ErrorsBetween(verdicts, lo + 1, hi))
            == SaveAll(folder, ErrorTitle, ErrorsBetween(verdicts, lo, hi))
  {
    SaveAllAppend(folder, ErrorTitle, ErrorsOf(verdicts(lo)), ErrorsBetween(verdicts, lo + 1, hi));
  }

  /** One turn of the loop: a failed attempt that is not the last goes on
      with the next one; otherwise the loop ends after this attempt. */
  lemma LoopStep(verdicts: nat -> Step, attempt: nat, folder: LogFolder)
    requires attempt < MaxRetries
    ensures var next := SaveAll(folder, ErrorTitle, ErrorsOf(verdicts(attempt)));
            if verdicts(attempt).Retry? && attempt < MaxRetries - 1
            then Loop(verdicts, attempt, folder) == Loop(verdicts, attempt + 1, next)
            else Loop(verdicts, attempt, folder).folder == next && Loop(verdicts, attempt, folder).calls == attempt + 1
  {
  }

  /** The `if check_ask_gpt_history(...)` test: a record was found and its
      response is truthy. */
  predicate CacheHit(folder: LogFolder, listing: seq<string>, prompt: string, model: string) {
    Lookup(folder, listing, prompt, model).Some? && Truthy(Lookup(folder, listing, prompt, model).value)
  }

  /** The part of `ask_gpt` after the cache and key checks: build the
      request, run the retry loop, and log an accepted reply under the
      caller's title unless the title is "None". */
  function Exchange(cfg: Config, q: Query, backend: Backend, folder: LogFolder): (r: AskResult)
    ensures 0 < |r.sent| <= MaxRetries
    ensures forall i :: 0 <= i < |r.sent| ==> r.sent[i] == Setup(cfg, q.prompt, q.responseJson)
    ensures forall k :: 0 <= k < |r.sent| - 1 ==> Verdicts(cfg, q, backend)(k).Retry?
    ensures r.outcome.Returned? ==> Verdicts(cfg, q, backend)(|r.sent| - 1) == Accept(r.outcome.value)
    ensures r.outcome.Raised? ==> && r.outcome.error.RetriesExhausted?
                                  && |r.sent| == MaxRetries
                                  && Verdicts(cfg, q, backend)(MaxRetries - 1).Retry?
                                  && Verdicts(cfg, q, backend)(MaxRetries - 1).failure == r.outcome.error.last
  {
    var req := Setup(cfg, q.prompt, q.responseJson);
    var loop := Loop(Verdicts(cfg, q, backend), 0, folder);
    var sent := seq(loop.calls, _ => req);
    match loop.end
    case Exhausted(failure) => AskResult(Raised(RetriesExhausted(failure)), loop.folder, sent)
    case Accepted(data) =>
      var logged := if q.logTitle != NoLogTitle then SaveLog(loop.folder, cfg.model, q.prompt, data, q.logTitle) else loop.folder;
      AskResult(Returned(data), logged, sent)
  }

  /** `ask_gpt`. A truthy cached response is returned before anything else,
      without a call or a write; then a missing API key raises, again without
      a call or a write; otherwise the endpoint is called. */
  function Ask(cfg: Config, q: Query, backend: Backend, folder: LogFolder, listing: seq<string>): (r: AskResult)
    ensures CacheHit(folder, listing, q.prompt, cfg.model) ==>
              r == AskResult(Returned(Lookup(folder, listing, q.prompt, cfg.model).value), folder, [])
    ensures !CacheHit(folder, listing, q.prompt, cfg.model) && cfg.apiKey == "" ==>
              r == AskResult(Raised(MissingApiKey), folder, [])
    ensures !CacheHit(folder, listing, q.prompt, cfg.model) && cfg.apiKey != "" ==>
              r == Exchange(cfg, q, backend, folder)
    ensures |r.sent| <= MaxRetries
    ensures r.outcome.Raised? ==> (r.sent == [] <==> r.outcome.error == MissingApiKey)
  {
    if CacheHit(folder, listing, q.prompt, cfg.model) then
      AskResult(Returned(Lookup(folder, listing, q.prompt, cfg.model).value), folder, [])
    else if cfg.apiKey == "" then AskResult(Raised(MissingApiKey), folder, [])
    else Exchange(cfg, q, backend, folder)
  }
}

=== FILE: ask_gpt_props.dfy ===
/**
  Properties of `ask_gpt` that relate several attempts or several calls:
  what one call leaves in the log, how the retry loop ends for a transport
  that always fails, a plain-text reply, a validator that always rejects or
  a decoder that always fails, and the cache answering a repeated call.
 */
module AskGptProps {
  import opened Values
  import opened Text
  import opened GptLog
  import opened AskGpt

  /** The success record `ask_gpt` appends, if any. */
  function SuccessRecords(cfg: Config, q: Query, r: AskResult): seq<Record> {
    if r.outcome.Returned? && q.logTitle != NoLogTitle then [Record(cfg.model, q.prompt, r.outcome.value, Null)] else []
  }

  /** The raw text of the `k`-th endpoint reply (empty for a transport error). */
  function RawReply(backend: Backend, k: nat): string {
    if backend.transport(k).Content? then backend.transport(k).text else ""
  }

  lemma ErrorTitleNotConsulted()
    ensures !Eligible(FileName(ErrorTitle))
  {
    TitleConsulted(ErrorTitle);
    assert ErrorTitle[..5] == "error";
  }

  /** Saving to the `error` partition leaves the cache's answer unchanged. */
  lemma ErrorSavesKeepUnanswered(folder: LogFolder, records: seq<Record>, prompt: string, model: string)
    requires Unanswered(folder, prompt, model)
    ensures Unanswered(SaveAll(folder, ErrorTitle, records), prompt, model)
  {
    ErrorTitleNotConsulted();
    SaveAllAppends(folder, ErrorTitle, records);
  }

  /** The log folder after one call that reaches the endpoint: the error
      records of the attempts it made, saved one by one to the `error`
      partition, then the success record, if any, saved under the title. */
  lemma ExchangeFolder(cfg: Config, q: Query, backend: Backend, folder: LogFolder)
    ensures var r := Exchange(cfg, q, backend, folder);
            var logged := SaveAll(folder, ErrorTitle, ErrorsBetween(Verdicts(cfg, q, backend), 0, |r.sent|));
            r.folder == if SuccessRecords(cfg, q, r) == [] then logged
                        else SaveLog(logged, cfg.model, q.prompt, r.outcome.value, q.logTitle)
  {
    LoopErrorLog(Verdicts(cfg, q, backend), 0, folder);
  }

  /** The `error` partition and a title other than "error" name different files. */
  lemma ErrorFileDistinct(title: string)
    requires title != ErrorTitle
    ensures FileName(ErrorTitle) != FileName(title)
  {
    assert FileName(title)[..|title|] == title;
  }

  /** Saving error records, then possibly one success record under another
      title, appends to exactly those two partitions. */
  lemma ErrorsThenSuccess(folder: LogFolder, errors: seq<Record>, title: string, model: string, prompt: string,
                          value: Value, logged: bool)
    requires title != ErrorTitle
    ensures var after := SaveAll(folder, ErrorTitle, errors);
            var last := if logged then SaveLog(after, model, prompt, value, title) else after;
            && Partition(last, ErrorTitle) == Partition(folder, ErrorTitle) + errors
            && Partition(last, title) == Partition(folder, title) + (if logged then [Record(model, prompt, value, Null)] else [])
            && (forall n :: n != FileName(ErrorTitle) && n != FileName(title) ==> (n in Files(last) <==> n in Files(folder)))
            && (forall n :: n in Files(folder) && n != FileName(ErrorTitle) && n != FileName(title) ==>
                  Files(last)[n] == Files(folder)[n])
  {
    SaveAllAppends(folder, ErrorTitle, errors);
    SaveLogAppends(SaveAll(folder, ErrorTitle, errors), model, prompt, value, title, Null);
    ErrorFileDistinct(title);
    if !logged {
      assert Partition(folder, title) + [] == Partition(folder, title);
    }
  }

  /** What one call that reaches the endpoint leaves in the log: the error
      records of the attempts it made, in order, in the `error` partition;
      the success record, if any, in the caller's partition; every other
      file untouched. */
  lemma ExchangeLogEffect(cfg: Config, q: Query, backend: Backend, folder: LogFolder)
    requires q.logTitle != ErrorTitle
    ensures var r := Exchange(cfg, q, backend, folder);
            && Partition(r.folder, ErrorTitle)
                 == Partition(folder, ErrorTitle) + ErrorsBetween(Verdicts(cfg, q, backend), 0, |r.sent|)
            && Partition(r.folder, q.logTitle) == Partition(folder, q.logTitle) + SuccessRecords(cfg, q, r)
            && (forall n :: n != FileName(ErrorTitle) && n != FileName(q.logTitle) ==>
                  (n in Files(r.folder) <==> n in Files(folder)))
            && (forall n :: n in Files(folder) && n != FileName(ErrorTitle) && n != FileName(q.logTitle) ==>
                  Files(r.folder)[n] == Files(folder)[n])
  {
    var r := Exchange(cfg, q, backend, folder);
    var value := if r.outcome.Returned? then r.outcome.value else Null;
    ExchangeFolder(cfg, q, backend, folder);
    ErrorsThenSuccess(folder, ErrorsBetween(Verdicts(cfg, q, backend), 0, |r.sent|), q.logTitle, cfg.model, q.prompt,
                      value, SuccessRecords(cfg, q, r) != []);
  }

  /** When every endpoint call fails, `ask_gpt` raises after exactly five
      calls and writes nothing: transport errors are not logged. */
  lemma TransportAlwaysFails(cfg: Config, q: Query, backend: Backend, folder: LogFolder)
    requires forall k :: backend.transport(k) == TransportError
    ensures Exchange(cfg, q, backend, folder)
            == AskResult(Raised(RetriesExhausted(TransportFailed)), folder, seq(MaxRetries, _ => Setup(cfg, q.prompt, q.responseJson)))
  {
    var v := Verdicts(cfg, q, backend);
    LoopErrorLog(v, 0, folder);
    assert ErrorsBetween(v, 0, MaxRetries) == [] by {
      NoErrorsBetween(v, 0, MaxRetries);
    }
  }

  lemma {:induction false} NoErrorsBetween(v: nat -> Step, lo: nat, hi: nat)
    requires forall k :: lo <= k < hi ==> ErrorsOf(v(k)) == []
    ensures ErrorsBetween(v, lo, hi) == []
    decreases hi - lo
  {
    if lo < hi {
      NoErrorsBetween(v, lo + 1, hi);
    }
  }

  /** Without JSON mode the first reply that arrives ends the loop: it is
      returned as text, after one call per earlier transport error, and only
      the success record is written. */
  lemma PlainReplyEndsLoop(cfg: Config, q: Query, backend: Backend, folder: LogFolder, k: nat)
    requires !q.responseJson && k < MaxRetries && backend.transport(k).Content?
    requires forall j :: 0 <= j < k ==> backend.transport(j) == TransportError
    ensures var r := Exchange(cfg, q, backend, folder);
            && r.outcome == Returned(Str(backend.transport(k).text))
            && |r.sent| == k + 1
            && r.folder == if q.logTitle != NoLogTitle
                           then SaveLog(folder, cfg.model, q.prompt, r.outcome.value, q.logTitle)
                           else folder
  {
    var v := Verdicts(cfg, q, backend);
    var loop := Loop(v, 0, folder);
    assert v(k).Accept?;
    assert loop.calls == k + 1;
    LoopErrorLog(v, 0, folder);
    NoErrorsBetween(v, 0, k + 1);
  }

  /** The `k`-th reply decodes, the validator returns a non-success status
      with a message: the attempt is rejected. */
  ghost predicate RejectedAt(q: Query, backend: Backend, k: nat) {
    && backend.transport(k).Content?
    && backend.decode(backend.transport(k).text).Some?
    && q.validator.Some?
    && var check := q.validator.value(backend.decode(backend.transport(k).text).value);
       check.Verdict? && check.status.Some? && check.status != Some(Str("success")) && check.message.Some?
  }

  /** The decoded `k`-th reply (`Null` when there is none). */
  function Decoded(backend: Backend, k: nat): Value {
    var d := backend.decode(RawReply(backend, k));
    if d.Some? then d.value else Null
  }

  /** The error records attempt `k` writes when it is rejected: the decoded
      data with the validator's message, then the raw text with the note. */
  function RejectionRecords(cfg: Config, q: Query, backend: Backend, k: nat): seq<Record> {
    var data := Decoded(backend, k);
    var message := if q.validator.Some? && q.validator.value(data).Verdict? && q.validator.value(data).message.Some? then q.validator.value(data).message.value else Null;
    [Record(cfg.model, q.prompt, data, message), ParseFailureRecord(cfg.model, q.prompt, RawReply(backend, k))]
  }

  /** When no attempt is accepted, the call raises after five endpoint calls
      with the last attempt's failure, and the only writes are the error
      records of all five attempts, appended to the `error` partition;
      whatever the log title, no success record is written. */
  lemma NoAttemptAccepted(cfg: Config, q: Query, backend: Backend, folder: LogFolder)
    requires forall k :: 0 <= k < MaxRetries ==> Verdicts(cfg, q, backend)(k).Retry?
    ensures var r := Exchange(cfg, q, backend, folder);
            && |r.sent| == MaxRetries
            && r.outcome == Raised(RetriesExhausted(Verdicts(cfg, q, backend)(MaxRetries - 1).failure))
            && r.folder == SaveAll(folder, ErrorTitle, ErrorsBetween(Verdicts(cfg, q, backend), 0, MaxRetries))
            && Partition(r.folder, ErrorTitle)
                 == Partition(folder, ErrorTitle) + ErrorsBetween(Verdicts(cfg, q, backend), 0, MaxRetries)
  {
    ExchangeFolder(cfg, q, backend, folder);
    SaveAllAppends(folder, ErrorTitle, ErrorsBetween(Verdicts(cfg, q, backend), 0, MaxRetries));
  }

  /** The verdict of a rejected attempt. */
  lemma RejectedVerdict(cfg: Config, q: Query, backend: Backend, k: nat)
    requires q.responseJson && RejectedAt(q, backend, k)
    ensures Verdicts(cfg, q, backend)(k)
            == Retry(Rejected(Some(RejectionRecords(cfg, q, backend, k)[0].message)), RejectionRecords(cfg, q, backend, k))
  {
    var raw := backend.transport(k).text;
    var data := backend.decode(raw).value;
    assert RawReply(backend, k) == raw && Decoded(backend, k) == data;
  }

  /** The error records that rejected attempts `lo` to four write, in order. */
  function RejectionLog(cfg: Config, q: Query, backend: Backend, lo: nat): seq<Record>
    decreases MaxRetries - lo
  {
    if lo >= MaxRetries then [] else RejectionRecords(cfg, q, backend, lo) + RejectionLog(cfg, q, backend, lo + 1)
  }

  /** When attempts `lo` to four are all rejected, they write exactly the
      rejection records, and the last failure is the last rejection. */
  lemma {:induction false} RejectionsLogged(cfg: Config, q: Query, backend: Backend, lo: nat)
    requires q.responseJson
    requires forall k :: lo <= k < MaxRetries ==> RejectedAt(q, backend, k)
    ensures forall k :: lo <= k < MaxRetries ==> Verdicts(cfg, q, backend)(k).Retry?
    ensures ErrorsBetween(Verdicts(cfg, q, backend), lo, MaxRetries) == RejectionLog(cfg, q, backend, lo)
    decreases MaxRetries - lo
  {
    if lo < MaxRetries {
      RejectionsLogged(cfg, q, backend, lo + 1);
      RejectedVerdict(cfg, q, backend, lo);
    }
  }

  /** The rejection log holds two records per attempt, in attempt order. */
  lemma {:induction false} RejectionLogInPairs(cfg: Config, q: Query, backend: Backend, lo: nat)
    requires lo <= MaxRetries
    ensures |RejectionLog(cfg, q, backend, lo)| == 2 * (MaxRetries - lo)
    ensures forall k :: lo <= k < MaxRetries ==>
              RejectionLog(cfg, q, backend, lo)[2 * (k - lo)..2 * (k - lo) + 2] == RejectionRecords(cfg, q, backend, k)
    decreases MaxRetries - lo
  {
    if lo < MaxRetries {
      RejectionLogInPairs(cfg, q, backend, lo + 1);
      var rest := RejectionLog(cfg, q, backend, lo + 1);
      var all := RejectionLog(cfg, q, backend, lo);
      assert all == RejectionRecords(cfg, q, backend, lo) + rest;
      forall k | lo < k < MaxRetries
        ensures all[2 * (k - lo)..2 * (k - lo) + 2] == RejectionRecords(cfg, q, backend, k)
      {
        assert all[2 * (k - lo)..2 * (k - lo) + 2] == rest[2 * (k - (lo + 1))..2 * (k - (lo + 1)) + 2];
      }
      assert all[0..2] == RejectionRecords(cfg, q, backend, lo);
    }
  }

  /** When all five replies are rejected by the validator, `ask_gpt` raises
      after five calls with the last rejection as cause, and the `error`
      partition gains ten records: for each attempt, in order, its decoded
      data with its rejection message, then its raw text with the note
      (`RejectionLogInPairs` lays them out). */
  lemma ValidatorAlwaysRejects(cfg: Config, q: Query, backend: Backend, folder: LogFolder)
    requires q.responseJson
    requires forall k :: 0 <= k < MaxRetries ==> RejectedAt(q, backend, k)
    ensures var r := Exchange(cfg, q, backend, folder);
            && |r.sent| == MaxRetries
            && r.outcome == Raised(RetriesExhausted(Rejected(Some(RejectionRecords(cfg, q, backend, MaxRetries - 1)[0].message))))
            && Partition(r.folder, ErrorTitle) == Partition(folder, ErrorTitle) + RejectionLog(cfg, q, backend, 0)
  {
    RejectionsLogged(cfg, q, backend, 0);
    RejectedVerdict(cfg, q, backend, MaxRetries - 1);
    NoAttemptAccepted(cfg, q, backend, folder);
  }

  /** The parse-failure records of attempts `lo` to four, in order. */
  function ParseFailureLog(cfg: Config, q: Query, backend: Backend, lo: nat): seq<Record>
    decreases MaxRetries - lo
  {
    if lo >= MaxRetries then []
    else [ParseFailureRecord(cfg.model, q.prompt, RawReply(backend, lo))] + ParseFailureLog(cfg, q, backend, lo + 1)
  }

  /** No reply of attempts `lo` to four can be decoded. */
  ghost predicate Undecodable(backend: Backend, lo: nat) {
    forall k :: lo <= k < MaxRetries ==> backend.transport(k).Content? && backend.decode(backend.transport(k).text).None?
  }

  /** Attempts whose replies cannot be decoded each write their raw text with
      the parse-failure note, and fail with `DecodeFailed`. */
  lemma {:induction false} DecodeFailuresLogged(cfg: Config, q: Query, backend: Backend, lo: nat)
    requires q.responseJson && Undecodable(backend, lo)
    ensures forall k :: lo <= k < MaxRetries ==> Verdicts(cfg, q, backend)(k).Retry?
    ensures lo < MaxRetries ==> Verdicts(cfg, q, backend)(MaxRetries - 1).failure == DecodeFailed
    ensures ErrorsBetween(Verdicts(cfg, q, backend), lo, MaxRetries) == ParseFailureLog(cfg, q, backend, lo)
    decreases MaxRetries - lo
  {
    if lo < MaxRetries {
      DecodeFailuresLogged(cfg, q, backend, lo + 1);
      assert RawReply(backend, lo) == backend.transport(lo).text;
    }
  }

  /** The parse-failure log holds one record per attempt, in attempt order. */
  lemma {:induction false} ParseFailureLogInOrder(cfg: Config, q: Query, backend: Backend, lo: nat)
    requires lo <= MaxRetries
    ensures |ParseFailureLog(cfg, q, backend, lo)| == MaxRetries - lo
    ensures forall k :: lo <= k < MaxRetries ==>
              ParseFailureLog(cfg, q, backend, lo)[k - lo] == ParseFailureRecord(cfg.model, q.prompt, RawReply(backend, k))
    decreases MaxRetries - lo
  {
    if lo < MaxRetries {
      ParseFailureLogInOrder(cfg, q, backend, lo + 1);
      var rest := ParseFailureLog(cfg, q, backend, lo + 1);
      var all := ParseFailureLog(cfg, q, backend, lo);
      assert all == [ParseFailureRecord(cfg.model, q.prompt, RawReply(backend, lo))] + rest;
      forall k | lo < k < MaxRetries
        ensures all[k - lo] == ParseFailureRecord(cfg.model, q.prompt, RawReply(backend, k))
      {
        assert all[k - lo] == rest[k - (lo + 1)];
      }
    }
  }

  /** When no reply can be decoded, `ask_gpt` raises after five calls and
      the `error` partition gains five records: each attempt's raw text with
      the parse-failure note, in order (`ParseFailureLogInOrder`). */
  lemma DecoderAlwaysFails(cfg: Config, q: Query, backend: Backend, folder: LogFolder)
    requires q.responseJson && Undecodable(backend, 0)
    ensures var r := Exchange(cfg, q, backend, folder);
            && r.outcome == Raised(RetriesExhausted(DecodeFailed))
            && |r.sent| == MaxRetries
            && Partition(r.folder, ErrorTitle) == Partition(folder, ErrorTitle) + ParseFailureLog(cfg, q, backend, 0)
  {
    DecodeFailuresLogged(cfg, q, backend, 0);
    NoAttemptAccepted(cfg, q, backend, folder);
  }

  /** The cache makes a repeated call free: when nothing was stored for the
      prompt and model, a call that returns a truthy value and logs it under
      a consulted title is followed, for the same prompt and model, by a call
      that returns the same value with no endpoint call and no write. */
  lemma {:induction false} RepeatedAskIsCached(cfg: Config, q: Query, backend: Backend, folder: LogFolder, listing: seq<string>,
                                               q': Query, backend': Backend, listing': seq<string>)
    requires ListingOf(folder, listing) && Lookup(folder, listing, q.prompt, cfg.model).None?
    requires q.logTitle != NoLogTitle && !Contains(q.logTitle, "error")
    requires Ask(cfg, q, backend, folder, listing).outcome.Returned?
    requires Truthy(Ask(cfg, q, backend, folder, listing).outcome.value)
    requires q'.prompt == q.prompt
    requires ListingOf(Ask(cfg, q, backend, folder, listing).folder, listing')
    ensures var first := Ask(cfg, q, backend, folder, listing);
            Ask(cfg, q', backend', first.folder, listing') == AskResult(Returned(first.outcome.value), first.folder, [])
  {
    var first := Ask(cfg, q, backend, folder, listing);
    var v := Verdicts(cfg, q, backend);
    var loop := Loop(v, 0, folder);
    assert first.sent != [];
    LoopErrorLog(v, 0, folder);
    MissMeansNoRecord(folder, listing, q.prompt, cfg.model);
    ErrorSavesKeepUnanswered(folder, ErrorsBetween(v, 0, loop.calls), q.prompt, cfg.model);
    SaveThenLookup(loop.folder, cfg.model, q.prompt, first.outcome.value, q.logTitle, Null, listing');
  }

  /** A falsy stored answer is no answer: when the first record found for
      the prompt and model holds a falsy response, the call goes to the
      endpoint as if nothing were stored, so the key is asked, and logged,
      again. */
  lemma FalsyAnswerShadows(cfg: Config, q: Query, backend: Backend, folder: LogFolder, listing: seq<string>)
    requires Lookup(folder, listing, q.prompt, cfg.model).Some?
    requires !Truthy(Lookup(folder, listing, q.prompt, cfg.model).value)
    requires cfg.apiKey != ""
    ensures Ask(cfg, q, backend, folder, listing) == Exchange(cfg, q, backend, folder)
    ensures 0 < |Ask(cfg, q, backend, folder, listing).sent|
  {
  }

  /** A call with the default arguments asks for JSON, has no validator,
      and logs its answer to `default.json`, a file the lookup consults. */
  lemma DefaultQueryIsLoggedAndConsulted(prompt: string)
    ensures var q := DefaultQuery(prompt);
            && q.prompt == prompt && q.responseJson && q.validator.None?
            && q.logTitle != NoLogTitle && FileName(q.logTitle) == "default.json"
            && Eligible(FileName(q.logTitle))
  {
    // "default" holds "error" at none of its three offsets of length 5.
    var d := "default";
    assert |d[3..]| < 5;
    assert d[2..][1..] == d[3..] && d[2..][..5][0] != 'e';
    assert d[1..][1..] == d[2..] && d[1..][..5][1] != 'r';
    assert d[..5][0] != 'e';
    TitleConsulted("default");
  }
}

=== FILE: capcut_api.dfy ===
/**
  The client side of the CapCut draft service: every call is guarded by the
  `require_capcut_api` check, builds a JSON object from its arguments and
  hands it to `make_request`, which sends it to `BASE_URL/<endpoint>`.

  The service configuration (`capcut.installed`, read on every call, and
  `BASE_URL`, fixed when the module is imported) is the `Env` parameter; the
  HTTP exchange is the `Http` parameter, a function from the request sent to
  the reply received.
 */
module CapcutApi {
  import opened Values
  import opened CapcutCalls

  /** The value of `load_key("capcut.installed")` and of `BASE_URL`. */
  datatype Env = Env(installed: Value, baseUrl: Option<string>)

  datatype Verb = Post | Get

  /** One HTTP request: `requests.post(url, data=json.dumps(body))` or
      `requests.get(url, params=body)`, always with a JSON content type. */
  datatype Request = Request(verb: Verb, url: string, body: Body)

  /** What the HTTP exchange yields: a JSON body, a `RequestException`
      (including the one `raise_for_status` raises for an error status), or
      a body that is not JSON. */
  datatype HttpReply = Received(body: Value) | RequestFailed | Unparsable

  type Http = Request -> HttpReply

  /** What a guarded call returns, or the `ValueError` it raises. */
  datatype CallResult = Returned(value: Value) | RaisedValueError(message: string)

  /** The decorator's test: the service is installed and `BASE_URL` is set. */
  predicate Ready(env: Env) {
    Truthy(env.installed) && env.baseUrl.Some?
  }

  /** The reply of a guarded call when the service is unavailable. */
  function NotInstalled(): Value {
    Obj(map["success" := Bool(false), "error" := Str("CapCutAPI not installed")])
  }

  /** The address of an endpoint: `f"{BASE_URL}/{endpoint}"`. */
  function Url(baseUrl: string, endpoint: string): (url: string)
    ensures |url| == |baseUrl| + 1 + |endpoint|
    ensures url[..|baseUrl|] == baseUrl && url[|baseUrl|] == '/' && url[|baseUrl| + 1..] == endpoint
  {
    baseUrl + "/" + endpoint
  }

  /** An address names its endpoint: different endpoints of one service have
      different addresses. */
  lemma UrlNamesEndpoint(baseUrl: string, e1: string, e2: string)
    ensures Url(baseUrl, e1) == Url(baseUrl, e2) <==> e1 == e2
  {
    if Url(baseUrl, e1) == Url(baseUrl, e2) {
      assert e1 == Url(baseUrl, e1)[|baseUrl| + 1..];
    }
  }

  /** The result of a request that was sent: the decoded body, or `None` when
      the request failed or the body is not JSON (both handlers only print). */
  function Complete(reply: HttpReply): (r: CallResult)
    ensures r.Returned?
    ensures reply.Received? ==> r.value == reply.body
    ensures !reply.Received? ==> r.value == Null
  {
    match reply
    case Received(body) => Returned(body)
    case _ => Returned(Null)
  }

  /** The request `make_request` sends, if any: `None` for a method other
      than "POST" and "GET", which raises before anything is sent. */
  function Dispatch(baseUrl: string, endpoint: string, data: Body, httpMethod: string): (req: Option<Request>)
    ensures req.Some? <==> httpMethod == "POST" || httpMethod == "GET"
    ensures req.Some? ==> req.value.url == Url(baseUrl, endpoint) && req.value.body == data
    ensures req.Some? ==> (req.value.verb == Post <==> httpMethod == "POST")
  {
    if httpMethod == "POST" then Some(Request(Post, Url(baseUrl, endpoint), data))
    else if httpMethod == "GET" then Some(Request(Get, Url(baseUrl, endpoint), data))
    else None
  }

  /** `make_request`, behind its guard. An unsupported method raises a
      `ValueError` that neither handler catches; every other outcome is a
      return. */
  function MakeRequest(env: Env, http: Http, endpoint: string, data: Body, httpMethod: string := "POST"): (r: CallResult)
    ensures !Ready(env) ==> r == Returned(NotInstalled())
    ensures r.RaisedValueError? <==> Ready(env) && httpMethod != "POST" && httpMethod != "GET"
    ensures r.RaisedValueError? ==> r.message == "Unsupported HTTP method: " + httpMethod
    ensures Ready(env) && httpMethod == "POST" ==> r == Complete(http(Request(Post, Url(env.baseUrl.value, endpoint), data)))
    ensures Ready(env) && httpMethod == "GET" ==> r == Complete(http(Request(Get, Url(env.baseUrl.value, endpoint), data)))
  {
    if !Ready(env) then Returned(NotInstalled())
    else
      match Dispatch(env.baseUrl.value, endpoint, data, httpMethod)
      case None => RaisedValueError("Unsupported HTTP method: " + httpMethod)
      case Some(req) => Complete(http(req))
  }

  /** `get_font_types`: a GET of `get_font_types` with an empty query. The
      handler for any exception cannot fire, since a GET never raises. */
  function GetFontTypes(env: Env, http: Http): (r: CallResult)
    ensures r.Returned?
    ensures !Ready(env) ==> r == Returned(NotInstalled())
    ensures Ready(env) ==> r == Complete(http(Request(Get, Url(env.baseUrl.value, "get_font_types"), NoParams)))
  {
    if !Ready(env) then Returned(NotInstalled())
    else
      match MakeRequest(env, http, "get_font_types", NoParams, "GET")
      case Returned(v) => Returned(v)
      case RaisedValueError(message) =>
        Returned(Obj(map["success" := Bool(false), "output" := Arr([]), "error" := Str(message)]))
  }

  /** A builder call behind its guard: the object of the call, posted to
      its endpoint. The builder's own guard and the one on `make_request`
      read the same configuration, so the second never fires on its own. */
  function Invoke(env: Env, http: Http, c: Call): CallResult {
    if !Ready(env) then Returned(NotInstalled())
    else MakeRequest(env, http, Endpoint(c), BodyOf(c))
  }
}

=== FILE: capcut_calls.dfy ===
/**
  The payload-building calls of the CapCut client, side by side: which
  endpoint each one posts to and which object it posts.
 */
module CapcutCalls {
  import opened Values
  import opened CapcutPayloads

  /** One call of a payload builder, with its arguments. */
  datatype Call =
    | AddAudioTrack(audio: AudioTrackArgs)
    | AddText(text: TextArgs)
    | AddImage(image: ImageArgs)
    | GenerateImage(generate: GenerateImageArgs)
    | AddSticker(sticker: StickerArgs)
    | AddVideoKeyframe(keyframe: KeyframeArgs)
    | AddVideo(video: VideoArgs)
    | AddEffect(effect: EffectArgs)
    | CreateDraft(draft: CreateDraftArgs)
    | AddSubtitle(subtitle: SubtitleArgs)
    | SaveDraft(save: SaveDraftArgs)

  /** The JSON object of a request: the empty object `get_font_types`
      sends, or the object of one builder. */
  datatype Body =
    | NoParams
    | AudioTrackBody(audioData: AudioTrackData)
    | TextBody(textData: TextData)
    | ImageBody(imageData: ImageData)
    | GenerateImageBody(generateData: GenerateImageData)
    | StickerBody(stickerData: StickerData)
    | KeyframeBody(keyframeData: KeyframeData)
    | VideoBody(videoData: VideoData)
    | EffectBody(effectData: EffectData)
    | CreateDraftBody(draftData: CreateDraftData)
    | SubtitleBody(subtitleData: SubtitleData)
    | SaveDraftBody(saveData: SaveDraftData)

  /** The endpoint each builder posts to. */
  function Endpoint(c: Call): string {
    match c
    case AddAudioTrack(_) => "add_audio"
    case AddText(_) => "add_text"
    case AddImage(_) => "add_image"
    case GenerateImage(_) => "generate_image"
    case AddSticker(_) => "add_sticker"
    case AddVideoKeyframe(_) => "add_video_keyframe"
    case AddVideo(_) => "add_video"
    case AddEffect(_) => "add_effect"
    case CreateDraft(_) => "create_draft"
    case AddSubtitle(_) => "add_subtitle"
    case SaveDraft(_) => "save_draft"
  }

  /** The object each builder posts. */
  function BodyOf(c: Call): Body {
    match c
    case AddAudioTrack(a) => AudioTrackBody(AudioTrackPayload(a))
    case AddText(a) => TextBody(TextPayload(a))
    case AddImage(a) => ImageBody(ImagePayload(a))
    case GenerateImage(a) => GenerateImageBody(GenerateImagePayload(a))
    case AddSticker(a) => StickerBody(StickerPayload(a))
    case AddVideoKeyframe(a) => KeyframeBody(KeyframePayload(a))
    case AddVideo(a) => VideoBody(VideoPayload(a))
    case AddEffect(a) => EffectBody(EffectPayload(a))
    case CreateDraft(a) => CreateDraftBody(CreateDraftPayload(a))
    case AddSubtitle(a) => SubtitleBody(SubtitlePayload(a))
    case SaveDraft(a) => SaveDraftBody(SaveDraftPayload(a))
  }

  /** The `draft_id` argument of a call. */
  function DraftIdArg(c: Call): Value {
    match c
    case AddAudioTrack(a) => a.draftId
    case AddText(a) => a.draftId
    case AddImage(a) => a.draftId
    case GenerateImage(a) => a.draftId
    case AddSticker(a) => a.draftId
    case AddVideoKeyframe(a) => a.draftId
    case AddVideo(a) => a.draftId
    case AddEffect(a) => a.draftId
    case CreateDraft(a) => a.draftId
    case AddSubtitle(a) => a.draftId
    case SaveDraft(a) => a.draftId
  }

  /** The `draft_id` key of an object, `None` when absent. */
  function DraftIdSent(b: Body): Option<Value> {
    match b
    case NoParams => None
    case AudioTrackBody(p) => p.draftId
    case TextBody(p) => p.draftId
    case ImageBody(p) => p.draftId
    case GenerateImageBody(p) => p.draftId
    case StickerBody(p) => p.draftId
    case KeyframeBody(p) => Some(p.draftId)
    case VideoBody(p) => p.draftId
    case EffectBody(p) => p.draftId
    case CreateDraftBody(p) => p.draftId
    case SubtitleBody(p) => p.draftId
    case SaveDraftBody(p) => Some(p.draftId)
  }

  /** The calls that name their draft: the keyframe and save calls, whose
      `draft_id` has no default. */
  predicate NamesDraft(c: Call) {
    c.AddVideoKeyframe? || c.SaveDraft?
  }

  /** Every builder follows one rule for `draft_id`: the two calls that
      name their draft always send it, as given; every other call sends it
      exactly when it is truthy. */
  lemma DraftIdAcrossCalls(c: Call)
    ensures NamesDraft(c) ==> DraftIdSent(BodyOf(c)) == Some(DraftIdArg(c))
    ensures !NamesDraft(c) ==> DraftIdRule(DraftIdSent(BodyOf(c)), DraftIdArg(c))
  {
  }

  /** Each builder has an endpoint of its own: two calls post to the same
      endpoint exactly when they are calls of the same builder. */
  lemma EndpointNamesBuilder(c1: Call, c2: Call)
    ensures Endpoint(c1) == Endpoint(c2) <==> SameBuilder(c1, c2)
  {
  }

  /** `c1` and `c2` call the same builder, whatever their arguments. */
  predicate SameBuilder(c1: Call, c2: Call) {
    match c1
    case AddAudioTrack(_) => c2.AddAudioTrack?
    case AddText(_) => c2.AddText?
    case AddImage(_) => c2.AddImage?
    case GenerateImage(_) => c2.GenerateImage?
    case AddSticker(_) => c2.AddSticker?
    case AddVideoKeyframe(_) => c2.AddVideoKeyframe?
    case AddVideo(_) => c2.AddVideo?
    case AddEffect(_) => c2.AddEffect?
    case CreateDraft(_) => c2.CreateDraft?
    case AddSubtitle(_) => c2.AddSubtitle?
    case SaveDraft(_) => c2.SaveDraft?
  }
}

=== FILE: capcut_payloads.dfy ===
/**
  The payloads of the CapCut service calls. Each call builds one JSON
  object from its arguments: a fixed set of keys, plus optional keys the
  client adds under its own rule for each, most when the argument is
  truthy, the keyframe ones when it is not `None`, and some only together
  with another key.

  An object is a record with one field per key, named after the key
  (`trackName` for `"track_name"`). A key the client may leave out is an
  `Option` field, `None` when the key is absent; keys the client only ever
  sends together share one optional sub-record. The arguments of each call
  are a record too, whose constructor carries the client's defaults.
 */
module CapcutPayloads {
  import opened Values

  /** `v` is sent under an optional key exactly when `cond` holds. */
  function When(cond: bool, v: Value): Option<Value> {
    if cond then Some(v) else None
  }

  /** The optional key `o` carries `v` when `cond` holds and is absent otherwise. */
  predicate SentIff(o: Option<Value>, v: Value, cond: bool) {
    (o.Some? <==> cond) && (o.Some? ==> o.value == v)
  }

  /** `draft_id` is sent exactly when the argument is truthy, and then as given. */
  predicate DraftIdRule(o: Option<Value>, draftId: Value) {
    SentIff(o, draftId, Truthy(draftId))
  }

  /** `transition_duration or 0.5`: the argument when truthy, half a second
      otherwise; so the value sent is always truthy. */
  predicate TransitionDurationRule(sent: Value, duration: Value) {
    && Truthy(sent)
    && (Truthy(duration) ==> sent == duration)
    && (!Truthy(duration) ==> sent == Float(0.5))
  }

  /** The mask keys of `add_image_impl` and `add_video_impl`; all nine are
      always sent, `None`s included. The two calls differ only in their
      defaults. */
  datatype Mask = Mask(maskType: Value, maskCenterX: Value, maskCenterY: Value, maskSize: Value,
                       maskRotation: Value, maskFeather: Value, maskInvert: Value,
                       maskRectWidth: Value, maskRoundCorner: Value)

  const ImageMask: Mask := Mask(Null, Float(0.0), Float(0.0), Float(0.5), Float(0.0), Float(0.0), Bool(false), Null, Null)
  const VideoMask: Mask := Mask(Null, Float(0.5), Float(0.5), Float(1.0), Float(0.0), Float(0.0), Bool(false), Null, Null)

  // ---------------------------------------------------------------- add_audio_track

  datatype AudioTrackArgs = AudioTrackArgs(
    audioUrl: Value, start: Value, end: Value, targetStart: Value,
    volume: Value := Float(1.0), speed: Value := Float(1.0), trackName: Value := Str("main_audio"),
    effectType: Value := Null, effectParams: Value := Null, draftId: Value := Null)

  datatype AudioTrackData = AudioTrackData(
    audioUrl: Value, start: Value, end: Value, targetStart: Value, volume: Value, speed: Value,
    trackName: Value, effectType: Value, effectParams: Value, draftId: Option<Value>)

  /** The object `add_audio_track` sends: every argument under its own key,
      `None`s included, and `draft_id` only when truthy. */
  function AudioTrackPayload(a: AudioTrackArgs): (p: AudioTrackData)
    ensures && p.audioUrl == a.audioUrl && p.start == a.start && p.end == a.end
            && p.targetStart == a.targetStart && p.volume == a.volume && p.speed == a.speed
            && p.trackName == a.trackName && p.effectType == a.effectType && p.effectParams == a.effectParams
    ensures DraftIdRule(p.draftId, a.draftId)
  {
    AudioTrackData(a.audioUrl, a.start, a.end, a.targetStart, a.volume, a.speed, a.trackName,
                   a.effectType, a.effectParams, When(Truthy(a.draftId), a.draftId))
  }

  // ---------------------------------------------------------------- add_text_impl

  datatype TextArgs = TextArgs(
    text: Value, start: Value, end: Value, font: Value, fontColor: Value, fontSize: Value, trackName: Value,
    draftFolder: Value := Str("123"), draftId: Value := Null, vertical: Value := Bool(false),
    transformX: Value := Float(0.5), transformY: Value := Float(0.5), fontAlpha: Value := Float(1.0),
    borderColor: Value := Null, borderWidth: Value := Float(0.0), borderAlpha: Value := Float(1.0),
    backgroundColor: Value := Null, backgroundAlpha: Value := Float(1.0), backgroundStyle: Value := Null,
    bubbleEffectId: Value := Null, bubbleResourceId: Value := Null,
    effectEffectId: Value := Null, outroAnimation: Value := Null)

  /** `border_color`, `border_width` and `border_alpha`, sent together. */
  datatype TextBorder = TextBorder(borderColor: Value, borderWidth: Value, borderAlpha: Value)

  /** `background_color` and `background_alpha`, sent together, and
      `background_style`, which is only ever sent with them. */
  datatype TextBackground = TextBackground(backgroundColor: Value, backgroundAlpha: Value, backgroundStyle: Option<Value>)

  /** `bubble_effect_id`, and `bubble_resource_id`, only ever sent with it. */
  datatype TextBubble = TextBubble(bubbleEffectId: Value, bubbleResourceId: Option<Value>)

  datatype TextData = TextData(
    draftFolder: Value, text: Value, start: Value, end: Value, font: Value, color: Value, size: Value,
    alpha: Value, trackName: Value, vertical: Value, transformX: Value, transformY: Value,
    border: Option<TextBorder>, background: Option<TextBackground>, bubble: Option<TextBubble>,
    effectEffectId: Option<Value>, draftId: Option<Value>, outroAnimation: Option<Value>)

  /** The object `add_text_impl` sends. The font colour, size and alpha
      travel as `color`, `size` and `alpha`. */
  function TextPayload(a: TextArgs): (p: TextData)
    ensures && p.draftFolder == a.draftFolder && p.text == a.text && p.start == a.start && p.end == a.end
            && p.font == a.font && p.color == a.fontColor && p.size == a.fontSize && p.alpha == a.fontAlpha
            && p.trackName == a.trackName && p.vertical == a.vertical
            && p.transformX == a.transformX && p.transformY == a.transformY
    ensures p.border.Some? <==> Truthy(a.borderColor)
    ensures p.border.Some? ==> p.border.value == TextBorder(a.borderColor, a.borderWidth, a.borderAlpha)
    ensures p.background.Some? <==> Truthy(a.backgroundColor)
    ensures p.background.Some? ==> && p.background.value.backgroundColor == a.backgroundColor
                                   && p.background.value.backgroundAlpha == a.backgroundAlpha
                                   && SentIff(p.background.value.backgroundStyle, a.backgroundStyle, Truthy(a.backgroundStyle))
    ensures p.bubble.Some? <==> Truthy(a.bubbleEffectId)
    ensures p.bubble.Some? ==> && p.bubble.value.bubbleEffectId == a.bubbleEffectId
                               && SentIff(p.bubble.value.bubbleResourceId, a.bubbleResourceId, Truthy(a.bubbleResourceId))
    ensures SentIff(p.effectEffectId, a.effectEffectId, Truthy(a.effectEffectId))
    ensures DraftIdRule(p.draftId, a.draftId)
    ensures SentIff(p.outroAnimation, a.outroAnimation, Truthy(a.outroAnimation))
  {
    var border := if Truthy(a.borderColor) then Some(TextBorder(a.borderColor, a.borderWidth, a.borderAlpha)) else None;
    var background :=
      if Truthy(a.backgroundColor)
      then Some(TextBackground(a.backgroundColor, a.backgroundAlpha, When(Truthy(a.backgroundStyle), a.backgroundStyle)))
      else None;
    var bubble :=
      if Truthy(a.bubbleEffectId)
      then Some(TextBubble(a.bubbleEffectId, When(Truthy(a.bubbleResourceId), a.bubbleResourceId)))
      else None;
    TextData(a.draftFolder, a.text, a.start, a.end, a.font, a.fontColor, a.fontSize, a.fontAlpha, a.trackName,
             a.vertical, a.transformX, a.transformY, border, background, bubble,
             When(Truthy(a.effectEffectId), a.effectEffectId), When(Truthy(a.draftId), a.draftId),
             When(Truthy(a.outroAnimation), a.outroAnimation))
  }

  // ---------------------------------------------------------------- add_image_impl

  datatype ImageArgs = ImageArgs(
    imageUrl: Value, width: Value, height: Value, start: Value, end: Value, trackName: Value,
    draftId: Value := Null, transformX: Value := Int(0), transformY: Value := Int(0),
    scaleX: Value := Float(1.0), scaleY: Value := Float(1.0), transition: Value := Null,
    transitionDuration: Value := Null, mask: Mask := ImageMask)

  datatype ImageData = ImageData(
    imageUrl: Value, width: Value, height: Value, start: Value, end: Value, trackName: Value,
    transformX: Value, transformY: Value, scaleX: Value, scaleY: Value, transition: Value,
    transitionDuration: Value, mask: Mask, draftId: Option<Value>)

  /** The object `add_image_impl` sends. */
  function ImagePayload(a: ImageArgs): (p: ImageData)
    ensures && p.imageUrl == a.imageUrl && p.width == a.width && p.height == a.height
            && p.start == a.start && p.end == a.end && p.trackName == a.trackName
            && p.transformX == a.transformX && p.transformY == a.transformY
            && p.scaleX == a.scaleX && p.scaleY == a.scaleY && p.transition == a.transition
    ensures TransitionDurationRule(p.transitionDuration, a.transitionDuration)
    ensures p.mask == a.mask
    ensures DraftIdRule(p.draftId, a.draftId)
  {
    ImageData(a.imageUrl, a.width, a.height, a.start, a.end, a.trackName, a.transformX, a.transformY,
              a.scaleX, a.scaleY, a.transition, Or(a.transitionDuration, Float(0.5)), a.mask,
              When(Truthy(a.draftId), a.draftId))
  }

  // ---------------------------------------------------------------- generate_image_impl

  datatype GenerateImageArgs = GenerateImageArgs(
    prompt: Value, width: Value, height: Value, start: Value, end: Value, trackName: Value,
    draftId: Value := Null, transformX: Value := Int(0), transformY: Value := Int(0),
    scaleX: Value := Float(1.0), scaleY: Value := Float(1.0), transition: Value := Null,
    transitionDuration: Value := Null)

  datatype GenerateImageData = GenerateImageData(
    prompt: Value, width: Value, height: Value, start: Value, end: Value, trackName: Value,
    transformX: Value, transformY: Value, scaleX: Value, scaleY: Value, transition: Value,
    transitionDuration: Value, draftId: Option<Value>)

  /** The object `generate_image_impl` sends. */
  function GenerateImagePayload(a: GenerateImageArgs): (p: GenerateImageData)
    ensures && p.prompt == a.prompt && p.width == a.width && p.height == a.height
            && p.start == a.start && p.end == a.end && p.trackName == a.trackName
            && p.transformX == a.transformX && p.transformY == a.transformY
            && p.scaleX == a.scaleX && p.scaleY == a.scaleY && p.transition == a.transition
    ensures TransitionDurationRule(p.transitionDuration, a.transitionDuration)
    ensures DraftIdRule(p.draftId, a.draftId)
  {
    GenerateImageData(a.prompt, a.width, a.height, a.start, a.end, a.trackName, a.transformX, a.transformY,
                      a.scaleX, a.scaleY, a.transition, Or(a.transitionDuration, Float(0.5)),
                      When(Truthy(a.draftId), a.draftId))
  }

  // ---------------------------------------------------------------- add_sticker_impl

  datatype StickerArgs = StickerArgs(
    resourceId: Value, start: Value, end: Value, draftId: Value := Null,
    transformX: Value := Int(0), transformY: Value := Int(0), alpha: Value := Float(1.0),
    flipHorizontal: Value := Bool(false), flipVertical: Value := Bool(false), rotation: Value := Float(0.0),
    scaleX: Value := Float(1.0), scaleY: Value := Float(1.0), trackName: Value := Str("sticker_main"),
    relativeIndex: Value := Int(0), width: Value := Int(1080), height: Value := Int(1920))

  datatype StickerData = StickerData(
    stickerId: Value, start: Value, end: Value, transformX: Value, transformY: Value, alpha: Value,
    flipHorizontal: Value, flipVertical: Value, rotation: Value, scaleX: Value, scaleY: Value,
    trackName: Value, relativeIndex: Value, width: Value, height: Value, draftId: Option<Value>)

  /** The object `add_sticker_impl` sends; the resource id travels as `sticker_id`. */
  function StickerPayload(a: StickerArgs): (p: StickerData)
    ensures && p.stickerId == a.resourceId && p.start == a.start && p.end == a.end
            && p.transformX == a.transformX && p.transformY == a.transformY && p.alpha == a.alpha
            && p.flipHorizontal == a.flipHorizontal && p.flipVertical == a.flipVertical
            && p.rotation == a.rotation && p.scaleX == a.scaleX && p.scaleY == a.scaleY
            && p.trackName == a.trackName && p.relativeIndex == a.relativeIndex
            && p.width == a.width && p.height == a.height
    ensures DraftIdRule(p.draftId, a.draftId)
  {
    StickerData(a.resourceId, a.start, a.end, a.transformX, a.transformY, a.alpha, a.flipHorizontal,
                a.flipVertical, a.rotation, a.scaleX, a.scaleY, a.trackName, a.relativeIndex, a.width,
                a.height, When(Truthy(a.draftId), a.draftId))
  }

  // ---------------------------------------------------------------- add_video_keyframe_impl

  datatype KeyframeArgs = KeyframeArgs(
    draftId: Value, trackName: Value, propertyType: Value := Null, time: Value := Null, value: Value := Null,
    propertyTypes: Value := Null, times: Value := Null, values: Value := Null)

  datatype KeyframeData = KeyframeData(
    draftId: Value, trackName: Value, propertyType: Option<Value>, time: Option<Value>, value: Option<Value>,
    propertyTypes: Option<Value>, times: Option<Value>, values: Option<Value>)

  /** `x` is sent exactly when it is not `None`: a falsy value such as `0`
      or `[]` is still sent. */
  predicate SentUnlessNone(o: Option<Value>, x: Value) {
    SentIff(o, x, x != Null)
  }

  /** The object `add_video_keyframe_impl` sends: `draft_id` and
      `track_name` always, each single or batch keyframe option when it is
      not `None`. */
  function KeyframePayload(a: KeyframeArgs): (p: KeyframeData)
    ensures p.draftId == a.draftId && p.trackName == a.trackName
    ensures SentUnlessNone(p.propertyType, a.propertyType) && SentUnlessNone(p.time, a.time)
            && SentUnlessNone(p.value, a.value)
    ensures SentUnlessNone(p.propertyTypes, a.propertyTypes) && SentUnlessNone(p.times, a.times)
            && SentUnlessNone(p.values, a.values)
  {
    KeyframeData(a.draftId, a.trackName, When(a.propertyType != Null, a.propertyType), When(a.time != Null, a.time),
                 When(a.value != Null, a.value), When(a.propertyTypes != Null, a.propertyTypes),
                 When(a.times != Null, a.times), When(a.values != Null, a.values))
  }

  // ---------------------------------------------------------------- add_video_impl

  datatype VideoArgs = VideoArgs(
    videoUrl: Value, start: Value := Null, end: Value := Null, width: Value := Null, height: Value := Null,
    trackName: Value := Str("main"), draftId: Value := Null, transformY: Value := Int(0),
    scaleX: Value := Int(1), scaleY: Value := Int(1), transformX: Value := Int(0), speed: Value := Float(1.0),
    targetStart: Value := Int(0), relativeIndex: Value := Int(0), transition: Value := Null,
    transitionDuration: Value := Null, mask: Mask := VideoMask)

  datatype VideoData = VideoData(
    videoUrl: Value, height: Value, trackName: Value, transformY: Value, scaleX: Value, scaleY: Value,
    transformX: Value, speed: Value, targetStart: Value, relativeIndex: Value, transition: Value,
    transitionDuration: Value, mask: Mask, draftId: Option<Value>, start: Option<Value>, end: Option<Value>,
    width: Option<Value>)

  /** The object `add_video_impl` sends. `height` is in the initial object,
      `None` included, and is written again with the same value when
      truthy; `start`, `end` and `width` are added only when truthy, so a
      zero start is not sent. */
  function VideoPayload(a: VideoArgs): (p: VideoData)
    ensures && p.videoUrl == a.videoUrl && p.height == a.height && p.trackName == a.trackName
            && p.transformY == a.transformY && p.scaleX == a.scaleX && p.scaleY == a.scaleY
            && p.transformX == a.transformX && p.speed == a.speed && p.targetStart == a.targetStart
            && p.relativeIndex == a.relativeIndex && p.transition == a.transition
    ensures TransitionDurationRule(p.transitionDuration, a.transitionDuration)
    ensures p.mask == a.mask
    ensures DraftIdRule(p.draftId, a.draftId)
    ensures SentIff(p.start, a.start, Truthy(a.start)) && SentIff(p.end, a.end, Truthy(a.end))
            && SentIff(p.width, a.width, Truthy(a.width))
  {
    VideoData(a.videoUrl, a.height, a.trackName, a.transformY, a.scaleX, a.scaleY, a.transformX, a.speed,
              a.targetStart, a.relativeIndex, a.transition, Or(a.transitionDuration, Float(0.5)), a.mask,
              When(Truthy(a.draftId), a.draftId), When(Truthy(a.start), a.start), When(Truthy(a.end), a.end),
              When(Truthy(a.width), a.width))
  }

  // ---------------------------------------------------------------- add_effect

  datatype EffectArgs = EffectArgs(
    effectType: Value, start: Value, end: Value, draftId: Value := Null, trackName: Value := Str("effect_01"),
    params: Value := Null, width: Value := Int(1080), height: Value := Int(1920))

  datatype EffectData = EffectData(
    effectType: Value, start: Value, end: Value, trackName: Value, params: Value, width: Value, height: Value,
    draftId: Option<Value>)

  /** The object `add_effect` sends: `params or []`, so a falsy `params`
      travels as the empty list. */
  function EffectPayload(a: EffectArgs): (p: EffectData)
    ensures && p.effectType == a.effectType && p.start == a.start && p.end == a.end
            && p.trackName == a.trackName && p.width == a.width && p.height == a.height
    ensures Truthy(a.params) ==> p.params == a.params
    ensures !Truthy(a.params) ==> p.params == Arr([])
    ensures DraftIdRule(p.draftId, a.draftId)
  {
    EffectData(a.effectType, a.start, a.end, a.trackName, Or(a.params, Arr([])), a.width, a.height,
               When(Truthy(a.draftId), a.draftId))
  }

  // ---------------------------------------------------------------- create_draft

  datatype CreateDraftArgs = CreateDraftArgs(width: Value, height: Value, draftId: Value := Null)

  datatype CreateDraftData = CreateDraftData(width: Value, height: Value, draftId: Option<Value>)

  /** The object `create_draft` sends. */
  function CreateDraftPayload(a: CreateDraftArgs): (p: CreateDraftData)
    ensures p.width == a.width && p.height == a.height
    ensures DraftIdRule(p.draftId, a.draftId)
  {
    CreateDraftData(a.width, a.height, When(Truthy(a.draftId), a.draftId))
  }

  // ---------------------------------------------------------------- add_subtitle

  datatype SubtitleArgs = SubtitleArgs(
    srt: Value, trackName: Value := Str("subtitle_main"), draftId: Value := Null, fontSize: Value := Int(8),
    font: Value := Null, fontColor: Value := Str("#FFFFFF"), borderColor: Value := Null,
    borderWidth: Value := Int(0), transformY: Value := Int(0))

  /** `border_color` and `border_width`, sent together. */
  datatype SubtitleBorder = SubtitleBorder(borderColor: Value, borderWidth: Value)

  datatype SubtitleData = SubtitleData(
    srt: Value, trackName: Value, fontSize: Value, fontColor: Value, transformY: Value, font: Option<Value>,
    border: Option<SubtitleBorder>, draftId: Option<Value>)

  /** The object `add_subtitle` sends. */
  function SubtitlePayload(a: SubtitleArgs): (p: SubtitleData)
    ensures && p.srt == a.srt && p.trackName == a.trackName && p.fontSize == a.fontSize
            && p.fontColor == a.fontColor && p.transformY == a.transformY
    ensures SentIff(p.font, a.font, Truthy(a.font))
    ensures p.border.Some? <==> Truthy(a.borderColor)
    ensures p.border.Some? ==> p.border.value == SubtitleBorder(a.borderColor, a.borderWidth)
    ensures DraftIdRule(p.draftId, a.draftId)
  {
    SubtitleData(a.srt, a.trackName, a.fontSize, a.fontColor, a.transformY, When(Truthy(a.font), a.font),
                 if Truthy(a.borderColor) then Some(SubtitleBorder(a.borderColor, a.borderWidth)) else None,
                 When(Truthy(a.draftId), a.draftId))
  }

  // ---------------------------------------------------------------- save_draft

  datatype SaveDraftArgs = SaveDraftArgs(draftId: Value, draftFolder: Value)

  datatype SaveDraftData = SaveDraftData(draftId: Value, draftFolder: Value)

  /** The object `save_draft` sends: both arguments, always. */
  function SaveDraftPayload(a: SaveDraftArgs): (p: SaveDraftData)
    ensures p.draftId == a.draftId && p.draftFolder == a.draftFolder
  {
    SaveDraftData(a.draftId, a.draftFolder)
  }
}

=== FILE: capcut_props.dfy ===
/**
  Properties of the CapCut client as a whole: what the guard does to every
  call, that a call sends one request to its own endpoint, and what the
  service receives when a caller leaves arguments at their defaults.
 */
module CapcutProps {
  import opened Values
  import opened CapcutPayloads
  import opened CapcutCalls
  import opened CapcutApi

  /** A builder call never raises: with the service ready it posts its own
      object to its own endpoint and returns whatever that exchange yields;
      otherwise it returns the "not installed" reply. */
  lemma InvokePostsOnce(env: Env, http: Http, c: Call)
    ensures Invoke(env, http, c).Returned?
    ensures !Ready(env) ==> Invoke(env, http, c) == Returned(NotInstalled())
    ensures Ready(env) ==>
      Invoke(env, http, c) == Complete(http(Request(Post, Url(env.baseUrl.value, Endpoint(c)), BodyOf(c))))
  {
  }

  /** When the service is not ready the guard answers before anything is
      sent: the transport makes no difference to any guarded call. */
  lemma GuardSendsNothing(env: Env, h1: Http, h2: Http, c: Call, endpoint: string, data: Body, httpMethod: string)
    requires !Ready(env)
    ensures Invoke(env, h1, c) == Invoke(env, h2, c)
    ensures MakeRequest(env, h1, endpoint, data, httpMethod) == MakeRequest(env, h2, endpoint, data, httpMethod)
    ensures GetFontTypes(env, h1) == GetFontTypes(env, h2)
  {
  }

  /** When the service is ready a call sends exactly one request: two
      transports that answer that request alike give the same result. */
  lemma OnlyTheCallsRequestMatters(env: Env, h1: Http, h2: Http, c: Call)
    requires Ready(env)
    requires var req := Request(Post, Url(env.baseUrl.value, Endpoint(c)), BodyOf(c)); h1(req) == h2(req)
    ensures Invoke(env, h1, c) == Invoke(env, h2, c)
  {
  }

  /** Calls of different builders go to different addresses, and calls of
      one builder to the same address. */
  lemma {:induction false} UrlNamesBuilder(baseUrl: string, c1: Call, c2: Call)
    ensures Url(baseUrl, Endpoint(c1)) == Url(baseUrl, Endpoint(c2)) <==> SameBuilder(c1, c2)
  {
    UrlNamesEndpoint(baseUrl, Endpoint(c1), Endpoint(c2));
    EndpointNamesBuilder(c1, c2);
  }

  /** A falsy value that is not `None`, such as `0`, is sent by the
      keyframe call, which tests for `None`, and dropped by the video call,
      which tests truthiness. */
  lemma FalsyKeptByKeyframeDroppedByVideo(k: KeyframeArgs, v: VideoArgs)
    requires k.time != Null && !Truthy(k.time)
    requires v.start == k.time
    ensures KeyframePayload(k).time == Some(k.time)
    ensures VideoPayload(v).start == None
  {
  }

  /** An audio track given only its source and timing plays at full volume
      and normal speed on "main_audio", with no effect and no draft id. */
  lemma AudioTrackDefaults(audioUrl: Value, start: Value, end: Value, targetStart: Value)
    ensures var p := AudioTrackPayload(AudioTrackArgs(audioUrl, start, end, targetStart));
            && p.volume == Float(1.0) && p.speed == Float(1.0) && p.trackName == Str("main_audio")
            && p.effectType == Null && p.effectParams == Null && p.draftId == None
  {
  }

  /** A video given only its address sends no start, end or width, a `None`
      height, a half-second transition duration and the full-frame mask
      centred on the frame. */
  lemma VideoDefaults(videoUrl: Value)
    ensures var p := VideoPayload(VideoArgs(videoUrl));
            && p.start == None && p.end == None && p.width == None && p.height == Null
            && p.trackName == Str("main") && p.transitionDuration == Float(0.5) && p.draftId == None
            && p.mask.maskCenterX == Float(0.5) && p.mask.maskCenterY == Float(0.5) && p.mask.maskSize == Float(1.0)
  {
  }

  /** An image mask left at its defaults is half the frame, anchored at the
      origin, where the video mask is the whole frame centred. */
  lemma ImageMaskDefaults(imageUrl: Value, width: Value, height: Value, start: Value, end: Value, trackName: Value)
    ensures var p := ImagePayload(ImageArgs(imageUrl, width, height, start, end, trackName));
            && p.mask.maskCenterX == Float(0.0) && p.mask.maskCenterY == Float(0.0) && p.mask.maskSize == Float(0.5)
            && p.mask != VideoPayload(VideoArgs(imageUrl)).mask
  {
  }

  /** A subtitle given only its SRT text is white, size 8, on
      "subtitle_main", with no font, border or draft id. */
  lemma SubtitleDefaults(srt: Value)
    ensures var p := SubtitlePayload(SubtitleArgs(srt));
            && p.trackName == Str("subtitle_main") && p.fontSize == Int(8) && p.fontColor == Str("#FFFFFF")
            && p.font == None && p.border == None && p.draftId == None
  {
  }

  /** An effect given no parameters sends the empty list, as does one given
      an empty list. */
  lemma EffectParamsDefault(effectType: Value, start: Value, end: Value)
    ensures EffectPayload(EffectArgs(effectType, start, end)).params == Arr([])
    ensures EffectPayload(EffectArgs(effectType, start, end, params := Arr([]))).params == Arr([])
  {
  }
}

=== FILE: gpt_log.dfy ===
/**
  The persistent call log behind `ask_gpt`: a folder (`output/gpt_log`) of
  JSON files, one per log title, each holding an array of call records.
  `save_log` appends one record to a title's file by rewriting the whole
  file; `check_ask_gpt_history` scans the files for a record with the same
  prompt and model and doubles as the response cache.

  The folder is an in-memory map from FILE name to the records it holds, so
  that the `.json` and `"error"` filters of the lookup apply to file names
  exactly as in the source. The order in which `os.listdir` returns the
  names is not fixed: it is the `listing` parameter of `Lookup`.
 */
module GptLog {
  import opened Values
  import opened Text

  /** One element of a log file; `message` is `null` for successful calls. */
  datatype Record = Record(model: string, prompt: string, response: Value, message: Value)

  /** The log folder, which does not exist before the first save. */
  datatype LogFolder = Missing | Present(files: map<string, seq<Record>>)

  /** The files of the folder; a missing folder has none. */
  function Files(folder: LogFolder): map<string, seq<Record>> {
    if folder.Missing? then map[] else folder.files
  }

  /** The file that holds the records of log title `title`. */
  function FileName(title: string): string {
    title + ".json"
  }

  /** The records already stored under `title`; a missing file reads as empty. */
  function Partition(folder: LogFolder, title: string): seq<Record> {
    if FileName(title) in Files(folder) then Files(folder)[FileName(title)] else []
  }

  /** `listing` is what listing the folder returns: exactly its file names. */
  ghost predicate ListingOf(folder: LogFolder, listing: seq<string>) {
    forall n :: n in listing <==> n in Files(folder)
  }

  /** Files the history lookup reads: `.json` files whose name lacks "error". */
  predicate Eligible(name: string) {
    EndsWith(name, ".json") && !Contains(name, "error")
  }

  /** The cache key: prompt and model, compared exactly. */
  predicate Matches(rec: Record, prompt: string, model: string) {
    rec.prompt == prompt && rec.model == model
  }

  predicate HasMatch(records: seq<Record>, prompt: string, model: string) {
    exists i :: 0 <= i < |records| && Matches(records[i], prompt, model)
  }

  /** Some record of `records` for this key stores response `v`. */
  predicate Answers(records: seq<Record>, prompt: string, model: string, v: Value) {
    exists i :: 0 <= i < |records| && Matches(records[i], prompt, model) && records[i].response == v
  }

  /** Every record of `records` for this key stores response `v`. */
  predicate OnlyAnswers(records: seq<Record>, prompt: string, model: string, v: Value) {
    forall i :: 0 <= i < |records| && Matches(records[i], prompt, model) ==> records[i].response == v
  }

  /** `save_log`: create the folder if needed, read the title's file (empty
      if absent), append one record and write the whole file back. */
  function SaveLog(folder: LogFolder, model: string, prompt: string, response: Value,
                   title: string := "default", message: Value := Null): LogFolder
  {
    var logs := Partition(folder, title);
    Present(Files(folder)[FileName(title) := logs + [Record(model, prompt, response, message)]])
  }

  /** `save_log` appends exactly one record to the title's file, creating
      the folder and the file when they are missing, and leaves every other
      file as it was. */
  lemma SaveLogAppends(folder: LogFolder, model: string, prompt: string, response: Value,
                       title: string, message: Value)
    ensures var saved := SaveLog(folder, model, prompt, response, title, message);
            && saved.Present?
            && Partition(saved, title) == Partition(folder, title) + [Record(model, prompt, response, message)]
            && (forall n :: n in saved.files <==> n in Files(folder) || n == FileName(title))
            && (forall n :: n in Files(folder) && n != FileName(title) ==> saved.files[n] == Files(folder)[n])
  {
  }

  /** Record `i` is the first one in `records` that matches the key. */
  predicate FirstMatchAt(records: seq<Record>, prompt: string, model: string, i: nat)
    requires i < |records|
  {
    Matches(records[i], prompt, model) && forall j :: 0 <= j < i ==> !Matches(records[j], prompt, model)
  }

  /** The response of the first record in `records` that matches the key;
      a later record for the same key is never consulted, even when the
      first one's response is falsy. */
  function FirstMatch(records: seq<Record>, prompt: string, model: string): (r: Option<Value>)
    ensures r.None? <==> !HasMatch(records, prompt, model)
    ensures r.Some? ==> exists i :: 0 <= i < |records| && FirstMatchAt(records, prompt, model, i)
                                    && records[i].response == r.value
    ensures r.Some? ==> Answers(records, prompt, model, r.value)
  {
    if records == [] then None
    else if Matches(records[0], prompt, model) then
      assert FirstMatchAt(records, prompt, model, 0);
      Some(records[0].response)
    else
      var r := FirstMatch(records[1..], prompt, model);
      assert forall i :: 0 < i < |records| ==> records[i] == records[1..][i - 1];
      assert HasMatch(records[1..], prompt, model) ==> HasMatch(records, prompt, model);
      assert r.Some? ==> exists i :: 0 <= i < |records| && FirstMatchAt(records, prompt, model, i)
                                    && records[i].response == r.value by {
        if r.Some? {
          var i :| 0 <= i < |records[1..]| && FirstMatchAt(records[1..], prompt, model, i) && records[1..][i].response == r.value;
          assert FirstMatchAt(records, prompt, model, i + 1);
        }
      }
      r
  }

  /** The loop over the listed file names of `check_ask_gpt_history`. */
  function Scan(files: map<string, seq<Record>>, listing: seq<string>, prompt: string, model: string): (r: Option<Value>)
    ensures r.None? <==> forall n :: n in listing && n in files && Eligible(n) ==> !HasMatch(files[n], prompt, model)
    ensures r.Some? ==> exists n :: n in listing && n in files && Eligible(n) && FirstMatch(files[n], prompt, model) == r
    ensures r.Some? ==> exists n :: n in listing && n in files && Eligible(n) && Answers(files[n], prompt, model, r.value)
  {
    if listing == [] then None
    else
      var name := listing[0];
      var rest := Scan(files, listing[1..], prompt, model);
      assert forall n :: n in listing <==> n == name || n in listing[1..];
      if Eligible(name) && name in files then
        match FirstMatch(files[name], prompt, model)
        case Some(v) => Some(v)
        case None => rest
      else rest
  }

  /** `check_ask_gpt_history`: the response of a record for (`prompt`,
      `model`) in one of the eligible files, or `None` (the source's `False`)
      when there is none or the folder does not exist. */
  function Lookup(folder: LogFolder, listing: seq<string>, prompt: string, model: string): (r: Option<Value>)
    ensures folder.Missing? ==> r.None?
    ensures r.Some? ==> exists n :: n in listing && n in Files(folder) && Eligible(n) && FirstMatch(Files(folder)[n], prompt, model) == r
    ensures r.Some? ==> exists n :: n in listing && n in Files(folder) && Eligible(n) && Answers(Files(folder)[n], prompt, model, r.value)
    ensures r.None? <==> forall n :: n in listing && n in Files(folder) && Eligible(n) ==> !HasMatch(Files(folder)[n], prompt, model)
  {
    if folder.Missing? then None else Scan(folder.files, listing, prompt, model)
  }

  /** The lookup consults a log title's file exactly when the title does not
      contain "error"; in particular the `error` partition is never read. */
  lemma TitleConsulted(title: string)
    ensures Eligible(FileName(title)) <==> !Contains(title, "error")
  {
    JsonSuffixKeepsError(title);
  }

  /** Files the lookup does not consult (non-`.json` files and those whose
      name contains "error") cannot change its answer, whatever they hold. */
  lemma {:induction false} LookupIgnoresIneligible(files: map<string, seq<Record>>, listing: seq<string>,
                                                   prompt: string, model: string, name: string, records: seq<Record>)
    requires !Eligible(name)
    ensures Lookup(Present(files[name := records]), listing, prompt, model) == Lookup(Present(files), listing, prompt, model)
  {
    if listing != [] {
      LookupIgnoresIneligible(files, listing[1..], prompt, model, name, records);
      var n := listing[0];
      if n != name {
        assert (n in files[name := records]) == (n in files);
        if n in files {
          assert files[name := records][n] == files[n];
        }
      }
    }
  }

  /** No file the lookup consults holds a record for the key. */
  ghost predicate Unanswered(folder: LogFolder, prompt: string, model: string) {
    forall n :: n in Files(folder) && Eligible(n) ==> !HasMatch(Files(folder)[n], prompt, model)
  }

  /** A miss over a complete listing means that no consulted file holds a
      record for the key, whichever order the names are listed in. */
  lemma MissMeansNoRecord(folder: LogFolder, listing: seq<string>, prompt: string, model: string)
    requires ListingOf(folder, listing)
    ensures Lookup(folder, listing, prompt, model).None? <==> Unanswered(folder, prompt, model)
  {
  }

  /** When the consulted files hold at least one record for the key and all
      such records store `v`, the lookup returns `v` in every listing order. */
  lemma LookupUnique(folder: LogFolder, listing: seq<string>, prompt: string, model: string, v: Value, name: string)
    requires ListingOf(folder, listing)
    requires name in Files(folder) && Eligible(name) && HasMatch(Files(folder)[name], prompt, model)
    requires forall n :: n in Files(folder) && Eligible(n) ==> OnlyAnswers(Files(folder)[n], prompt, model, v)
    ensures Lookup(folder, listing, prompt, model) == Some(v)
  {
    var r := Lookup(folder, listing, prompt, model);
    assert r.Some?;
    var n :| n in listing && n in Files(folder) && Eligible(n) && Answers(Files(folder)[n], prompt, model, r.value);
    var i :| 0 <= i < |Files(folder)[n]| && Matches(Files(folder)[n][i], prompt, model) && Files(folder)[n][i].response == r.value;
  }

  /** Saving a record into a consulted partition when the cache held nothing
      for its key makes the lookup return exactly the saved response, in
      every listing order. */
  lemma {:induction false} SaveThenLookup(folder: LogFolder, model: string, prompt: string, response: Value,
                                          title: string, message: Value, listing: seq<string>)
    requires Unanswered(folder, prompt, model)
    requires !Contains(title, "error")
    requires ListingOf(SaveLog(folder, model, prompt, response, title, message), listing)
    ensures Lookup(SaveLog(folder, model, prompt, response, title, message), listing, prompt, model) == Some(response)
  {
    var saved := SaveLog(folder, model, prompt, response, title, message);
    SaveLogAppends(folder, model, prompt, response, title, message);
    var name := FileName(title);
    TitleConsulted(title);
    var before := Partition(folder, title);
    var recs := Files(saved)[name];
    assert recs == before + [Record(model, prompt, response, message)];
    assert !HasMatch(before, prompt, model);
    assert HasMatch(recs, prompt, model) by {
      assert Matches(recs[|before|], prompt, model);
    }
    forall n | n in Files(saved) && Eligible(n)
      ensures OnlyAnswers(Files(saved)[n], prompt, model, response)
    {
      if n != name {
        assert Files(saved)[n] == Files(folder)[n];
        assert !HasMatch(Files(folder)[n], prompt, model);
      }
    }
    LookupUnique(saved, listing, prompt, model, response, name);
  }
}

=== FILE: text.dfy ===
/**
  The few string operations of Python that the modelled code relies on:
  the substring test `t in s`, `s.endswith(t)` and `s.strip(c)`.
 */
module Text {

  /** Python's `t in s` for strings: `t` occurs in `s` at some offset. */
  predicate Contains(s: string, t: string)
    decreases |s|
  {
    |t| <= |s| && (s[..|t|] == t || Contains(s[1..], t))
  }

  /** Python's `s.endswith(t)`. */
  predicate EndsWith(s: string, t: string) {
    |t| <= |s| && s[|s| - |t|..] == t
  }

  /** An occurrence at any offset is found by `Contains`. */
  lemma {:induction false} ContainsAt(s: string, t: string, i: nat)
    requires i + |t| <= |s| && s[i..i + |t|] == t
    ensures Contains(s, t)
    decreases i
  {
    if i > 0 {
      assert s[1..][i - 1..i - 1 + |t|] == s[i..i + |t|];
      ContainsAt(s[1..], t, i - 1);
    }
  }

  /** `t` occurs in `s` at offset `i`. */
  predicate OccursAt(s: string, t: string, i: nat) {
    i + |t| <= |s| && s[i..i + |t|] == t
  }

  /** Conversely, `Contains` only holds when `t` occurs at some offset, so
      it is exactly Python's `t in s`. */
  lemma {:induction false} ContainsOffset(s: string, t: string)
    requires Contains(s, t)
    ensures exists i: nat :: OccursAt(s, t, i)
    decreases |s|
  {
    if s[..|t|] == t {
      assert OccursAt(s, t, 0);
    } else {
      ContainsOffset(s[1..], t);
      var i: nat :| OccursAt(s[1..], t, i);
      assert s[i + 1..i + 1 + |t|] == s[1..][i..i + |t|];
      assert OccursAt(s, t, i + 1);
    }
  }

  /** A string always contains each of its own suffixes. */
  lemma ContainsSuffix(s: string, t: string)
    ensures Contains(s + t, t)
  {
    assert (s + t)[|s|..|s| + |t|] == t;
    ContainsAt(s + t, t, |s|);
  }

  /** Appending ".json" to a name neither creates nor destroys an occurrence
      of "error": the dot cannot be part of one, and "json" is too short. */
  lemma {:induction false} JsonSuffixKeepsError(s: string)
    ensures Contains(s + ".json", "error") <==> Contains(s, "error")
    decreases |s|
  {
    var w := s + ".json";
    if |s| == 0 {
      assert w == ".json";
      assert w[..5] != "error" by { assert w[0] == '.'; }
      assert !Contains(w[1..], "error") by { assert |w[1..]| == 4; }
    } else {
      assert w[1..] == s[1..] + ".json";
      JsonSuffixKeepsError(s[1..]);
      if |s| >= 5 {
        assert w[..5] == s[..5];
      } else {
        assert w[..5] != "error" by { assert w[..5][|s|] == '.'; }
        assert !Contains(s, "error");
      }
    }
  }

  /** Python's `s.lstrip(c)` for a single character `c`. The result is the
      suffix that remains after dropping every leading `c`. */
  function StripLeading(s: string, c: char): (r: string)
    ensures |r| <= |s| && r == s[|s| - |r|..]
    ensures forall i :: 0 <= i < |s| - |r| ==> s[i] == c
    ensures r != [] ==> r[0] != c
    decreases |s|
  {
    if s != [] && s[0] == c then StripLeading(s[1..], c) else s
  }

  /** Python's `s.rstrip(c)` for a single character `c`. The result is the
      prefix that remains after dropping every trailing `c`. */
  function StripTrailing(s: string, c: char): (r: string)
    ensures |r| <= |s| && r == s[..|r|]
    ensures forall i :: |r| <= i < |s| ==> s[i] == c
    ensures r != [] ==> r[|r| - 1] != c
    decreases |s|
  {
    if s != [] && s[|s| - 1] == c then StripTrailing(s[..|s| - 1], c) else s
  }

  /** Python's `s.strip(c)`: the result is what lies between the run of `c`
      that opens `s` and the run of `c` that closes it, and it neither starts
      nor ends with `c`. */
  function Strip(s: string, c: char): (r: string)
    ensures var a := |s| - |StripLeading(s, c)|;
            && a + |r| <= |s| && r == s[a..a + |r|]
            && (forall i :: 0 <= i < a ==> s[i] == c)
            && (forall i :: a + |r| <= i < |s| ==> s[i] == c)
    ensures r != [] ==> r[0] != c && r[|r| - 1] != c
  {
    var l := StripLeading(s, c);
    var a := |s| - |l|;
    var r := StripTrailing(l, c);
    assert l == s[a..];
    forall i | a + |r| <= i < |s|
      ensures s[i] == c
    {
      assert s[i] == l[i - a];
    }
    r
  }
}

=== FILE: values.dfy ===
/**
  Dynamically typed values as the Python code handles them: JSON-shaped data
  (what `json_repair.loads` produces, what is written to the call log, what
  the CapCut payloads carry), together with Python's truthiness rules, which
  decide many of the branches of the modelled code.
 */
module Values {

  /** A value that may be absent: a dictionary key that is not there, a
      keyword argument left out, or a lookup that found nothing. */
  datatype Option<+T> = None | Some(value: T)

  /** A Python value that can be serialised as JSON. `Null` is `None`;
      `Int` and `Float` keep Python's two number types apart, since
      `json.dumps` writes `1` and `1.0` differently. A `Float` is an exact
      real: rounding, infinities and NaN are not modelled. */
  datatype Value =
    | Null
    | Bool(b: bool)
    | Int(i: int)
    | Float(f: real)
    | Str(s: string)
    | Arr(items: seq<Value>)
    | Obj(fields: map<string, Value>)

  /** Python's `bool(v)`: `None`, `False`, zero and empty containers are falsy. */
  predicate Truthy(v: Value) {
    match v
    case Null => false
    case Bool(b) => b
    case Int(i) => i != 0
    case Float(f) => f != 0.0
    case Str(s) => s != ""
    case Arr(items) => items != []
    case Obj(fields) => fields != map[]
  }

  /** The falsy values are exactly `None`, `False`, the two zeros and the
      empty string, list and dict. */
  lemma FalsyValues(v: Value)
    ensures !Truthy(v) <==> v == Null || v == Bool(false) || v == Int(0) || v == Float(0.0)
                            || v == Str("") || v == Arr([]) || v == Obj(map[])
  {
  }

  /** Python's `v or fallback`: the left operand when it is truthy, else the right one. */
  function Or(v: Value, fallback: Value): (r: Value)
    ensures Truthy(v) ==> r == v
    ensures !Truthy(v) ==> r == fallback
    ensures Truthy(fallback) ==> Truthy(r)
  {
    if Truthy(v) then v else fallback
  }
}
